=== FILE: README.md ===
# event-cloner in Dafny

A model of the decision layer of event-cloner, a Discord bot that mirrors
scheduled events from "listen" guilds into "distribute" guilds and announces
event creation and cancellation in configured channels. Everything in
`index.js` that decides *what* the bot does is modelled as pure functions:

- which mirror jobs apply to an event (`getJobList`);
- how a source event is projected into its mirror (`eventOverwrite`);
- how mirrors are found again, by the source id embedded as the last line of
  the mirror's description (`getJobEvents`);
- what the create, update and delete handlers issue;
- which announcement channels receive a message.

The model does not perform any effects. Each handler returns the list of
platform commands it issues (create, set status, edit, delete, send), in
the order the source issues them, plus the distribution guilds it could not
resolve from the client's guild cache. The caches are immutable inputs: guild
id to cached events, and channel id to owning guild id.

Modules, in dependency order:

- `Results`: `Option` and `Result`.
- `Seqs`: `Filter` (the `Array.prototype.filter` that job selection is built
  from), the subsequence relation, and `Present`, which drops absent lookup
  slots.
- `Strings`: `Contains`, the substring test behind `String.prototype.includes`.
- `Platform`: events, entity types and their codes, statuses, caches and
  commands.
- `Config`: mirror jobs and announce jobs.
- `JobMatcher`: `getJobList`, and the reference predicate it implements.
- `Correlation`: the id embedding and the mirror lookup.
- `Projector`: `eventOverwrite`.
- `Reconcile`: the create, update and delete handlers.
- `Announce`: the two announcer handlers and `announcementHandler`.
- `Scenarios`: a worked example of one guild mirrored into another.

Where the source text and its evident intent differ, the model follows the
intent. The `Reconcile` and `Projector` module headers list each such point.
The bugs listed under "## Findings" also have an as-written member; the
out-of-scope reads below do not.

- Four reads name variables that are not in scope: `createdEvent` and `job`
  in `eventOverwrite` (index.js:76-80), `updatedEvent` in the create handler
  (index.js:112) and `deletedEvent` in `getJobEvents` (index.js:65-66). As
  written, each of them throws a ReferenceError, so every projection, every
  create task and every lookup that reaches a cached guild throws, and the
  bot as written mirrors nothing. The model passes the intended values
  explicitly instead: the job being handled, the notified event and its id.
- The projection returns a fresh record instead of overwriting its argument.
  The as-written create handler, which overwrites one shared event once per
  target, is modelled separately (`Reconcile.OnCreateAsWritten`).

Four behaviours of `index.js` that are easy to misread, kept as written:

- The end time defaults to start + 7200000 ms for every entity type, External
  included (index.js:76-79). The test is JavaScript truthiness, so an end
  timestamp of 0 counts as missing.
- The location of a mirrored external event is the source location in
  quotes followed by ` in <guild name>`, not the location verbatim
  (index.js:90).
- An announcement channel that belongs to another guild is skipped silently
  (index.js:53). Only a channel the client cannot resolve is warned about
  (index.js:52).
- The mirror lookup matches on the source id alone, not on the job
  (index.js:63-65). Two jobs that distribute one event to the same guild
  create two mirrors there, but both lookups return the first of them, so an
  update edits that mirror twice, in job order, a delete targets it twice,
  and the second mirror is never reached
  (`Scenarios.SharedMirrorEditedInJobOrder`).

## Model

| member | source | states |
|---|---|---|
| JobMatcher.GetJobList | index.js:36-44 | a job is selected exactly when it listens to the event's guild and its flag for the event's own entity type is set |
| JobMatcher.GetJobListIsSelection | index.js:37-43 | the chain of four filters equals one filter by the reference predicate `Selects` |
| JobMatcher.JobListInConfigOrder | index.js:37-43 | the selected jobs are a subsequence of the configured jobs, so configuration order is kept |
| JobMatcher.SelectionIgnoresOtherFlags | index.js:41-43 | two job lists that agree once the flags of the other entity types are cleared give filter results that also agree once those flags are cleared |
| JobMatcher.OtherTypeFlagsNeverMatter | index.js:41-43 | changing only the flags of the entity types other than the event's changes nothing in the job list except those same flags |
| Strings.ContainsIffOccurs | index.js:65 | the scanning substring test holds exactly when the needle occurs at some position of the haystack |
| Correlation.Embed | index.js:80 | the mirror description is the source description, then the suffix block (a line break, the job's suffix, a blank line), then the source id as the last line; so it contains the id |
| Correlation.FirstMatch | index.js:64-65 | the result is the position of the first cached event whose description contains the id; no cached event matches when there is no result |
| Correlation.FindMirror | index.js:64-66 | no result exactly when no cached event matches; otherwise the result is the first matching cached event |
| Correlation.EmbeddedIdIsFound | index.js:64-65 | round trip: a cached event whose description was built by `Embed` for an id is found by the lookup, provided no earlier cached event mentions the id |
| Correlation.GetJobEvents | index.js:61-70 | succeeds exactly when every distribution guild is cached; then there is one slot per distribution guild, in order, holding that guild's mirror or nothing; a failure names a distribution guild missing from the cache |
| Correlation.LookupAll | index.js:62-68 | the same per-guild contract for an arbitrary list of guilds |
| Projector.Location | index.js:82-91 | no contract; see `Projector.LocationRecordsMedium` |
| Projector.LocationRecordsMedium | index.js:82-91 | the location string tells stage, voice and external sources apart, quotes the channel name (stage, voice) or the source location (external) followed by ` in `, and ends with the source guild's name |
| Projector.EndTime | index.js:76-79 | no contract; see `Projector.Project` |
| Projector.Project | index.js:73-95 | the mirror keeps the name and the start; it takes the truthy source end, or else the start plus the 2-hour default; its description is the source description, the job's suffix block and the source id, in that order; its entity type is External, code 3 |
| Projector.MirrorRecordsMedium | index.js:82-93 | the mirror is External, but its location still records the source's entity type and quotes its channel name or location |
| Projector.ProjectAsWritten | index.js:82-88 | no contract; see `Projector.AsWrittenDropsStageAndVoice` |
| Projector.AsWrittenDropsStageAndVoice | index.js:82-88 | as written, the projection yields no mirror exactly for stage and voice events; for external events it agrees with `Project` |
| Projector.OverwriteInPlace | index.js:73-93 | overwriting writes the projection's description into the event itself, and for an external event the projection's location too; no other field the projection reads changes |
| Projector.OverwriteEach | index.js:111-113 | after one overwrite per pair, the description still starts with the original and has grown by at least the id and three line breaks per overwrite |
| Projector.OverwriteTwice | index.js:80-90 | a second overwrite for the same job appends the suffix block and the id again, and quotes an external event's already quoted location once more |
| Projector.ProjectedMirrorIsFound | index.js:80 | a mirror created from the projection is found again by the source id, in a cache without earlier mentions of the id |
| Reconcile.CreatesFor | index.js:113-114 | one create per guild, position by position, all carrying the same mirror |
| Reconcile.CreateTargets | index.js:111-115 | the creates are exactly those for the job's cached distribution guilds, in order, each carrying that job's projection; the reported guilds are exactly the uncached ones, in order |
| Reconcile.CreateJobs | index.js:108-116 | over all selected jobs, the `k`-th create is the projection of the `k`-th (job, cached guild) pair's job into that pair's guild, pairs taken job by job in distribution order, so each pair (a repeated guild included) gets exactly one create; the reported guilds are the uncached ones, job by job, in order |
| Reconcile.CreateJobsSound | index.js:108-116 | every create is of a selected job's projection in one of its cached distribution guilds |
| Reconcile.CreateJobsComplete | index.js:108-116 | every pair of a selected job and one of its cached distribution guilds gets its create |
| Reconcile.CachedOrUncached | index.js:108-116 | the creates and the reported guilds together number the (job, distribution guild) pairs |
| Reconcile.UncachedTargetsAreUncached | index.js:108-116 | a guild is reported exactly when some selected job distributes to it and it is not cached |
| Reconcile.OnCreate | index.js:106-117 | the create handler's `k`-th create is the projection of the `k`-th (selected job, cached guild) pair's job into that guild, and there are no others; creates plus reported guilds number the pairs; a guild is reported exactly when a selected job distributes to it and it is uncached; each created mirror is External and contains the source id |
| Reconcile.OnCreateAsWritten | index.js:106-117 | as written, stage and voice events get no create; an external event gets one create per cached pair, and the uncached guilds are reported as by `OnCreate` |
| Reconcile.AsWrittenCreateRepeatsSuffix | index.js:111-113 | as written, one job with two cached guilds creates twice the shared event, whose description carries the suffix block and id twice and whose location is quoted twice, so it differs from the projection |
| Reconcile.CreateJobsTwoTargets | index.js:108-117 | one job distributing to two cached guilds gives exactly the two creates, in distribution order, each of the projection for that job |
| Reconcile.CreateTwoTargets | index.js:106-117 | on the same input the corrected handler creates the projection once in each guild |
| Reconcile.FoundInCount | index.js:62-68 | in one job's guilds, found mirrors plus missing ones (one warning each) equal the number of distribution guilds |
| Reconcile.FoundOrWarned | index.js:62-68 | across all selected jobs, every distribution guild yields either a mirror or one warning |
| Reconcile.PresentSlotsAreFound | index.js:61-70 | the present slots of a job's lookup are exactly its directly looked-up mirrors |
| Reconcile.CollectMirrors | index.js:122 | succeeds exactly when every selected job's distribution guilds are cached; then there is one entry per job, in order, holding that job's lookup; a failure names an uncached guild |
| Reconcile.CollectedAreFound | index.js:122 | the mirrors in the collected lookups, flattened, are exactly the directly looked-up mirrors of the selected jobs |
| Reconcile.StatusCommands | index.js:124-126 | one set-status command per mirror, position by position |
| Reconcile.EditCommands | index.js:129-130 | one edit per mirror, position by position, each carrying the given projection |
| Reconcile.EditJobsProjectOwnJob | index.js:128-130 | every edit of a general update carries the projection for the job the mirror was found through |
| Reconcile.OnUpdate | index.js:120-131 | the update reports a guild exactly when some selected job has an uncached guild, and then issues no command and reports exactly one uncached guild; a cancelled event gets no command |
| Reconcile.Dispatch | index.js:123-131 | a cancelled event gets no command; any other status gets one command per found mirror, in order; Active and Completed set that status; Scheduled edits, the `k`-th edit rewriting the `k`-th collected mirror to the projection for the job it was found through |
| Reconcile.UpdateTargetsFoundMirrors | index.js:120-131 | with every guild cached and a status other than Canceled, an update acts on exactly the directly looked-up mirrors of the selected jobs, in order |
| Reconcile.UpdateDispatch | index.js:123-131 | Active sets every command's status Active; Completed sets Completed; Scheduled edits each mirror to the projection for a selected, resolvable job whose guilds hold that mirror, and with every guild cached the `k`-th edit is that of the `k`-th (job, mirror) entry found job by job |
| Reconcile.FoundEntries | index.js:61-70 | one (job, mirror) entry per mirror the lookup finds, job by job and guild by guild, as many as the found mirrors |
| Reconcile.CollectedEntriesAreFound | index.js:121-122 | the mirrors collected for the selected jobs, paired with their jobs, are exactly the found entries, in order |
| Reconcile.EditJobsPositional | index.js:128-130 | the edits of a general update line up with the collected entries: the `k`-th edit targets the `k`-th mirror with its own job's projection |
| Reconcile.UpdateEditsInFoundOrder | index.js:120-131 | with every guild cached, a Scheduled update issues exactly one edit per found entry, in order, each carrying the projection for the job the mirror was found through |
| Reconcile.OnUpdateAsWritten | index.js:122-130 | no contract; see `Reconcile.AsWrittenUpdateReachesNoMirror` |
| Reconcile.AsWrittenUpdateReachesNoMirror | index.js:122-130 | as written, no update issues any command; it throws exactly when a guild is uncached or a job is selected with a handled status; the corrected handler acts on every found mirror |
| Reconcile.DeleteCommands | index.js:138 | one delete per mirror, position by position |
| Reconcile.DeleteJobs | index.js:136-139 | only mirrors of the deleted event's id are ever deleted |
| Reconcile.DeleteJobsResolved | index.js:136-139 | with every guild cached, the delete pass deletes exactly the found mirrors, in job and guild order, and reports no guild |
| Reconcile.FirstUnresolvable | index.js:62-64 | the position of the first selected job with an uncached distribution guild; every earlier job is fully cached |
| Reconcile.DeleteJobsUnresolved | index.js:134-140 | an uncached distribution guild ends the delete pass: the deletes are exactly the found mirrors of the jobs before the first job with an uncached guild, and exactly one uncached guild of that job is reported |
| Reconcile.OnDelete | index.js:134-140 | only mirrors of the deleted event's id are deleted; a guild is reported exactly when some selected job has an uncached guild, and then exactly one, uncached |
| Reconcile.DeleteDispatch | index.js:134-140 | the delete handler deletes each found mirror of a selected job once, in order; deletes plus warnings account for every distribution guild |
| Reconcile.DeleteSlotsAsWritten | index.js:138 | as written, one job's deletes abort exactly when a slot is absent, and otherwise delete every present mirror in order |
| Reconcile.DeleteJobsAsWritten | index.js:136-139 | no contract; see `Reconcile.AsWrittenDeleteAbortsOnMissing` |
| Reconcile.AbsentSlotsAreMissing | index.js:62-68 | the absent slots of a lookup are exactly the guilds without a mirror |
| Reconcile.AsWrittenDeleteAbortsOnMissing | index.js:136-139 | as written, the delete handler throws exactly when a guild is uncached or holds no mirror; when it does not throw it deletes what the corrected handler deletes |
| Announce.AnnounceJobs | index.js:147 | an announce job is used exactly when it flags the transition, and configuration order is kept |
| Announce.ChannelSends | index.js:49-58 | the sends are exactly one per listed channel that resolves to the event's guild, in the listed order, carrying the given content, text and colour |
| Announce.CreatedSends | index.js:147-155 | the `k`-th send goes to the `k`-th deliverable (job, channel) entry, entries taken job by job in listed order, carrying "New Event!" in green with that entry's job message and the event link; so each listed deliverable channel (a repeated one included) gets exactly one send per listing |
| Announce.DeletedSends | index.js:159-166 | the `k`-th send is the red cancellation notice, without plain-text content, to the `k`-th deliverable (job, channel) entry; so each listed deliverable channel gets exactly one notice per listing |
| Announce.OnCreatedAnnounce | index.js:146-156 | the creation announcer's `k`-th send goes to the `k`-th deliverable entry of the jobs flagged `created`, with that job's message and the event link; no other channel gets anything |
| Announce.OnDeletedAnnounce | index.js:158-167 | the deletion announcer's `k`-th send is the cancellation notice to the `k`-th deliverable entry of the jobs flagged `deleted`; no other channel gets anything |
| Scenarios.SyncJobSelected | index.js:36-44 | a job listening to G1 with the voice flag is the only job selected for a voice event of G1 |
| Scenarios.SyncMirror | index.js:73-95 | the example voice event with no end projects to a 2-hour mirror, located `VC "General" in Guild One`, whose description ends with the suffix line, a blank line and `E1` |
| Scenarios.CreateSingleTarget | index.js:106-117 | one selected job with one cached distribution guild gives exactly one create |
| Scenarios.UpdateSingleTarget | index.js:128-130 | one selected job whose one cached guild holds a mirror gives exactly one edit of that mirror |
| Scenarios.CreateWeeklySync | index.js:106-117 | creating the example event issues one create in G2 with the concrete projected fields and nothing else |
| Scenarios.UpdateWeeklySync | index.js:120-131 | a general update finds the mirror created earlier by its id and edits it with the new description, the suffix re-applied |
| Scenarios.AsWrittenUpdateWeeklySyncFails | index.js:122-130 | the same update, handled as written, throws before editing anything |
| Scenarios.CrossGuildChannelSkipped | index.js:53 | a creation announcement aimed at a channel of another guild sends nothing |
| Scenarios.AsWrittenDeleteStopsAtMissingMirror | index.js:136-139 | with no mirror in G2 and one in G3, the handler as written deletes nothing and aborts; the corrected handler deletes the G3 mirror |
| Scenarios.AsWrittenVoiceEventHasNoMirror | index.js:86-88 | as written, the example voice event gets no mirror; the corrected projection gives it the voice location |
| Scenarios.SharedMirrorEditedInJobOrder | index.js:122-130 | two selected jobs distributing to the same guild find the same mirror, so a general update edits it twice, first for the first job and then for the second |

## Left out

- The Discord client: login, the `ready` log line, intents, event
  subscription and the error channel (`ERR` and its embed). The handlers are
  modelled as functions of the notification and the caches.
- Reading `config.json` and `package.json`. The configuration is a parameter.
- Concurrency. The source's `forEach(async …)` callbacks run unawaited. The
  model issues their commands in source order and treats each per-guild
  create callback as failing alone. Only `Reconcile.OnCreateAsWritten`
  models the interleaving, where it changes what is sent.
- Console warnings. An unresolvable announcement channel is skipped. A
  distribution guild without a mirror becomes an absent lookup slot;
  `Reconcile.FoundOrWarned` counts these warnings.
- The unknown-status warning of the update handler. It is modelled as "no
  command".
- Embeds. A `Send` keeps only the embed's description text and its colour.
- A null description on a cached or source event: descriptions are strings.
- Event fields that `eventOverwrite` copies without looking at them (privacy
  level, image and so on). They are not part of `MirrorEvent`.
- Stringifying an event inside a template literal. This is the platform's
  rendering of an event as a link; the model reads it as the `link` field.
- JavaScript number precision. Timestamps are unbounded integers, which is
  exact for every real timestamp plus 7200000.
- Announce flags other than `created` and `deleted`. No handler reads them.
- Reconcile.DeleteJobs: the function's own contract says only that every
  delete targets a mirror of the id. The full contract is split into
  `Reconcile.DeleteJobsResolved` and `Reconcile.DeleteJobsUnresolved`.

## Findings

Each as-written member below keeps the bug it names but assumes the
out-of-scope values above are supplied; without them the handlers throw
earlier, at the first out-of-scope read. All four rows depend on that
premise: rows 1 and 4 through `createdEvent` and `job` in `eventOverwrite`
(index.js:76-80) and `updatedEvent` in the create handler (index.js:112),
rows 2 and 3 through `deletedEvent` in the `getJobEvents` lookup
(index.js:65-66), which both the update and the delete handler call.

| source | as written | input that shows it | evidently intended | confidence | as-written member | corrected member |
|---|---|---|---|---|---|---|
| index.js:82-88 | a `return` inside the stage and voice cases leaves `eventOverwrite` before the location and entity type are set, so the result is `undefined` | any voice event, such as the example `WeeklySync` | every event gets a mirror, with the location naming the source channel and entity type 3 | not executed | Projector.AsWrittenDropsStageAndVoice | Projector.Project |
| index.js:136-139 | each lookup slot gets `.delete()`, and a slot for a guild without a mirror is `undefined`, so a TypeError ends the handler before the remaining deletes | one job distributing to G2 (no mirror) then G3 (mirror) | skip the guild without a mirror and delete the others | not executed | Scenarios.AsWrittenDeleteStopsAtMissingMirror | Reconcile.DeleteDispatch |
| index.js:122-130 | `eventList` holds one array of slots per job, and `setStatus` or `edit` is called on the array, which throws | any update with a selected job and status Active, Completed or Scheduled | act on each found mirror | not executed | Reconcile.AsWrittenUpdateReachesNoMirror | Reconcile.UpdateTargetsFoundMirrors |
| index.js:111-113 | every per-guild task overwrites the one source event before its first `await`, so all creates send that event after all the overwrites, with the suffix block and id repeated and an external location quoted repeatedly | one job distributing an external event to two cached guilds | each guild gets the mirror projected once from the source event | not executed | Reconcile.AsWrittenCreateRepeatsSuffix | Reconcile.CreateTwoTargets |

=== FILE: announce.dfy ===
/** The announcer (index.js:142-167 and `announcementHandler`): which channels
    receive a message when an event is created or deleted. Embed building and
    the sending itself are outside the model; a `Send` command carries the
    plain-text content, the embed text and its colour. */
module Announce {

  import opened Results
  import opened Seqs
  import opened Platform
  import opened Config

  /** The lifecycle transitions the source announces. */
  datatype Transition = Created | Deleted

  predicate Wants(job: AnnounceJob, t: Transition)
  {
    match t
    case Created => job.types.created
    case Deleted => job.types.deleted
  }

  /** The announce jobs that report `t`, in configuration order. Unlike mirror
      jobs there is no guild filter at this stage. */
  function AnnounceJobs(ajobs: seq<AnnounceJob>, t: Transition): (r: seq<AnnounceJob>)
    ensures forall job :: job in r <==> job in ajobs && Wants(job, t)
    ensures IsSubsequence(r, ajobs)
  {
    var p := (job: AnnounceJob) => Wants(job, t);
    FilterIsSubsequence(ajobs, p);
    Filter(ajobs, p)
  }

  /** A channel receives the message only if the client resolves it and it
      belongs to the guild the event was posted in. */
  predicate Deliverable(channels: ChannelCache, guildId: string, channelId: string)
  {
    channelId in channels && channels[channelId] == guildId
  }

  function DeliverableTo(channels: ChannelCache, guildId: string): string -> bool
  {
    (ch: string) => Deliverable(channels, guildId, ch)
  }

  /** How many sends the jobs `ajobs` make: their deliverable channels, job by
      job, each counted as often as it is listed. */
  function DeliverableCount(ajobs: seq<AnnounceJob>, channels: ChannelCache, guildId: string): nat
  {
    if |ajobs| == 0 then 0
    else |Filter(ajobs[0].channels, DeliverableTo(channels, guildId))| + DeliverableCount(ajobs[1..], channels, guildId)
  }

  /** An announcement channel together with the job that lists it. */
  datatype Entry = Entry(job: AnnounceJob, channelId: string)

  /** The entries of `job` for each of the channels `chs`, in order. */
  function EntriesOf(job: AnnounceJob, chs: seq<string>): (r: seq<Entry>)
    ensures |r| == |chs|
    ensures forall k :: 0 <= k < |chs| ==> r[k] == Entry(job, chs[k])
  {
    seq(|chs|, k requires 0 <= k < |chs| => Entry(job, chs[k]))
  }

  /** The deliverable (job, channel) entries of `ajobs`, job by job and,
      within a job, in listed order; a channel listed twice gives two
      entries. */
  function DeliverableEntries(ajobs: seq<AnnounceJob>, channels: ChannelCache, guildId: string): (r: seq<Entry>)
    ensures |r| == DeliverableCount(ajobs, channels, guildId)
  {
    if |ajobs| == 0 then []
    else EntriesOf(ajobs[0], Filter(ajobs[0].channels, DeliverableTo(channels, guildId)))
         + DeliverableEntries(ajobs[1..], channels, guildId)
  }

  /** `announcementHandler`: one send per deliverable channel of `chs`. An
      unresolvable channel (warned about) or a channel of another guild is
      skipped and the remaining channels are still processed. */
  function ChannelSends(channels: ChannelCache, guildId: string, chs: seq<string>,
                        content: Option<string>, update: string, colour: Colour): (r: seq<Command>)
    ensures |r| == |Filter(chs, DeliverableTo(channels, guildId))|
    ensures forall k :: 0 <= k < |r| ==> r[k] == Send(Filter(chs, DeliverableTo(channels, guildId))[k], content, update, colour)
    ensures forall c :: c in r ==>
              c.Send? && c.channelId in chs && Deliverable(channels, guildId, c.channelId)
              && c.content == content && c.update == update && c.colour == colour
    ensures forall ch :: ch in chs && Deliverable(channels, guildId, ch) ==>
              Send(ch, content, update, colour) in r
  {
    if |chs| == 0 then []
    else
      var rest := ChannelSends(channels, guildId, chs[1..], content, update, colour);
      assert forall ch :: ch in chs <==> ch == chs[0] || ch in chs[1..];
      if chs[0] !in channels then rest
      else if channels[chs[0]] != guildId then rest
      else [Send(chs[0], content, update, colour)] + rest
  }

  /** The creation message: the job's message and a link to the event. */
  function CreatedContent(job: AnnounceJob, e: GuildEvent): string
  {
    job.message + "\n" + e.link
  }

  function CancelledText(e: GuildEvent): string
  {
    "Event **" + e.name + "** got cancelled."
  }

  /** `cs` sends, position by position, the creation message of each entry's
      job to that entry's channel. */
  predicate AnnouncesCreated(cs: seq<Command>, entries: seq<Entry>, e: GuildEvent)
  {
    |cs| == |entries|
    && forall k :: 0 <= k < |cs| ==>
         cs[k] == Send(entries[k].channelId, Some(CreatedContent(entries[k].job, e)), "New Event!", Green)
  }

  /** `cs` sends, position by position, the cancellation notice to each
      entry's channel. */
  predicate AnnouncesDeleted(cs: seq<Command>, entries: seq<Entry>, e: GuildEvent)
  {
    |cs| == |entries|
    && forall k :: 0 <= k < |cs| ==> cs[k] == Send(entries[k].channelId, None, CancelledText(e), Red)
  }

  lemma AnnouncesCreatedAppend(a: seq<Command>, head: seq<Entry>, b: seq<Command>, tail: seq<Entry>, e: GuildEvent)
    requires AnnouncesCreated(a, head, e) && AnnouncesCreated(b, tail, e)
    ensures AnnouncesCreated(a + b, head + tail, e)
  {
    forall k | 0 <= k < |a + b|
      ensures (a + b)[k] == Send((head + tail)[k].channelId, Some(CreatedContent((head + tail)[k].job, e)), "New Event!", Green)
    {
      if k < |a| {
        assert (a + b)[k] == a[k] && (head + tail)[k] == head[k];
      } else {
        assert (a + b)[k] == b[k - |a|] && (head + tail)[k] == tail[k - |a|];
      }
    }
  }

  lemma AnnouncesDeletedAppend(a: seq<Command>, head: seq<Entry>, b: seq<Command>, tail: seq<Entry>, e: GuildEvent)
    requires AnnouncesDeleted(a, head, e) && AnnouncesDeleted(b, tail, e)
    ensures AnnouncesDeleted(a + b, head + tail, e)
  {
    forall k | 0 <= k < |a + b|
      ensures (a + b)[k] == Send((head + tail)[k].channelId, None, CancelledText(e), Red)
    {
      if k < |a| {
        assert (a + b)[k] == a[k] && (head + tail)[k] == head[k];
      } else {
        assert (a + b)[k] == b[k - |a|] && (head + tail)[k] == tail[k - |a|];
      }
    }
  }

  function CreatedSends(ajobs: seq<AnnounceJob>, channels: ChannelCache, e: GuildEvent): (r: seq<Command>)
    ensures |r| == DeliverableCount(ajobs, channels, e.guildId)
    ensures AnnouncesCreated(r, DeliverableEntries(ajobs, channels, e.guildId), e)
    ensures forall c :: c in r ==>
              c.Send? && Deliverable(channels, e.guildId, c.channelId)
              && c.update == "New Event!" && c.colour == Green
              && exists job :: job in ajobs && c.channelId in job.channels && c.content == Some(CreatedContent(job, e))
    ensures forall job, ch :: job in ajobs && ch in job.channels && Deliverable(channels, e.guildId, ch) ==>
              Send(ch, Some(CreatedContent(job, e)), "New Event!", Green) in r
  {
    if |ajobs| == 0 then []
    else
      assert forall job :: job in ajobs <==> job == ajobs[0] || job in ajobs[1..];
      var first := ChannelSends(channels, e.guildId, ajobs[0].channels, Some(CreatedContent(ajobs[0], e)), "New Event!", Green);
      var rest := CreatedSends(ajobs[1..], channels, e);
      var head := EntriesOf(ajobs[0], Filter(ajobs[0].channels, DeliverableTo(channels, e.guildId)));
      assert AnnouncesCreated(first, head, e);
      AnnouncesCreatedAppend(first, head, rest, DeliverableEntries(ajobs[1..], channels, e.guildId), e);
      first + rest
  }

  function DeletedSends(ajobs: seq<AnnounceJob>, channels: ChannelCache, e: GuildEvent): (r: seq<Command>)
    ensures |r| == DeliverableCount(ajobs, channels, e.guildId)
    ensures AnnouncesDeleted(r, DeliverableEntries(ajobs, channels, e.guildId), e)
    ensures forall c :: c in r ==>
              c.Send? && Deliverable(channels, e.guildId, c.channelId)
              && c == Send(c.channelId, None, CancelledText(e), Red)
              && exists job :: job in ajobs && c.channelId in job.channels
    ensures forall job, ch :: job in ajobs && ch in job.channels && Deliverable(channels, e.guildId, ch) ==>
              Send(ch, None, CancelledText(e), Red) in r
  {
    if |ajobs| == 0 then []
    else
      assert forall job :: job in ajobs <==> job == ajobs[0] || job in ajobs[1..];
      var first := ChannelSends(channels, e.guildId, ajobs[0].channels, None, CancelledText(e), Red);
      var rest := DeletedSends(ajobs[1..], channels, e);
      var head := EntriesOf(ajobs[0], Filter(ajobs[0].channels, DeliverableTo(channels, e.guildId)));
      assert AnnouncesDeleted(first, head, e);
      AnnouncesDeletedAppend(first, head, rest, DeliverableEntries(ajobs[1..], channels, e.guildId), e);
      first + rest
  }

  /** Announcing a creation: every channel of every job flagged `created`
      that resolves to the event's own guild gets "New Event!" with the job's
      message and the event link, and no other channel gets anything. */
  function OnCreatedAnnounce(ajobs: seq<AnnounceJob>, channels: ChannelCache, e: GuildEvent): (r: seq<Command>)
    ensures |r| == DeliverableCount(AnnounceJobs(ajobs, Created), channels, e.guildId)
    ensures AnnouncesCreated(r, DeliverableEntries(AnnounceJobs(ajobs, Created), channels, e.guildId), e)
    ensures forall c :: c in r ==>
              c.Send? && Deliverable(channels, e.guildId, c.channelId)
              && c.update == "New Event!" && c.colour == Green
              && exists job :: job in ajobs && job.types.created && c.channelId in job.channels
                               && c.content == Some(CreatedContent(job, e))
    ensures forall job, ch :: job in ajobs && job.types.created && ch in job.channels
                              && Deliverable(channels, e.guildId, ch) ==>
              Send(ch, Some(CreatedContent(job, e)), "New Event!", Green) in r
  {
    CreatedSends(AnnounceJobs(ajobs, Created), channels, e)
  }

  /** Announcing a deletion: every channel of every job flagged `deleted` that
      resolves to the event's own guild gets the cancellation notice, without
      plain-text content, and no other channel gets anything. */
  function OnDeletedAnnounce(ajobs: seq<AnnounceJob>, channels: ChannelCache, e: GuildEvent): (r: seq<Command>)
    ensures |r| == DeliverableCount(AnnounceJobs(ajobs, Deleted), channels, e.guildId)
    ensures AnnouncesDeleted(r, DeliverableEntries(AnnounceJobs(ajobs, Deleted), channels, e.guildId), e)
    ensures forall c :: c in r ==>
              c.Send? && Deliverable(channels, e.guildId, c.channelId)
              && c == Send(c.channelId, None, CancelledText(e), Red)
              && exists job :: job in ajobs && job.types.deleted && c.channelId in job.channels
    ensures forall job, ch :: job in ajobs && job.types.deleted && ch in job.channels
                              && Deliverable(channels, e.guildId, ch) ==>
              Send(ch, None, CancelledText(e), Red) in r
  {
    DeletedSends(AnnounceJobs(ajobs, Deleted), channels, e)
  }
}

=== FILE: config.dfy ===
/** The bot's static configuration, read once at start-up and never changed.
    The JSON key `type` is spelt `types` here, `type` being a keyword. */
module Config {

  /** Which entity types a mirror job copies. */
  datatype TypeFlags = TypeFlags(stageInstance: bool, voice: bool, external: bool)

  /** An entry of `functions.eventCloner.jobs`: copy events from any guild in
      `listen` into every guild in `distribute`, appending `eventDescSuffix`
      to the description. */
  datatype MirrorJob = MirrorJob(
    listen: seq<string>,
    types: TypeFlags,
    distribute: seq<string>,
    eventDescSuffix: string)

  /** The lifecycle transitions an announce job reports. */
  datatype AnnounceFlags = AnnounceFlags(created: bool, deleted: bool)

  /** An entry of `functions.eventAnnounce.jobs`: post to each of `channels`
      when a flagged transition happens, prefixing creations with `message`. */
  datatype AnnounceJob = AnnounceJob(
    channels: seq<string>,
    types: AnnounceFlags,
    message: string)
}

=== FILE: correlation.dfy ===
/** The correlation between a source event and its mirrors. There is no
    stored link: the source event's id is written as the last line of each
    mirror's description, and a mirror is found again by scanning a guild's
    cached events for a description that contains that id. */
module Correlation {

  import opened Results
  import opened Strings
  import opened Platform
  import opened Config

  /** The separator block between the source description and the id: the
      job's suffix on its own line, then a blank line. */
  function SuffixBlock(suffix: string): string
  {
    "\n" + suffix + "\n\n"
  }

  /** The mirror description: the source description, the job's suffix on its
      own line, a blank line, and the source id as the last line. */
  function Embed(description: string, suffix: string, id: string): (r: string)
    ensures |r| == |description| + |SuffixBlock(suffix)| + |id|
    ensures r[..|description|] == description
    ensures r[|description|..|r| - |id|] == SuffixBlock(suffix)
    ensures r[|r| - |id|..] == id
    ensures description <= r && Contains(r, id)
  {
    var head := description + SuffixBlock(suffix);
    ContainsOwnSuffix(head, id);
    head + id
  }

  /** A cached event is a mirror of the source event with id `id`. */
  predicate Matches(m: RemoteEvent, id: string)
  {
    Contains(m.description, id)
  }

  /** The position of the first cached event that matches `id`, if any
      (`Collection.find` scans in cache order). */
  function FirstMatch(cache: seq<RemoteEvent>, id: string): (r: Option<nat>)
    ensures r.Some? ==> r.value < |cache| && Matches(cache[r.value], id)
    ensures r.Some? ==> forall k :: 0 <= k < r.value ==> !Matches(cache[k], id)
    ensures r.None? ==> forall k :: 0 <= k < |cache| ==> !Matches(cache[k], id)
  {
    if |cache| == 0 then None
    else if Matches(cache[0], id) then Some(0)
    else
      match FirstMatch(cache[1..], id)
      case None => None
      case Some(k) => Some(k + 1)
  }

  /** The mirror of `id` in one guild's cache: the first matching event, or
      nothing when no description contains the id. */
  function FindMirror(cache: seq<RemoteEvent>, id: string): (r: Option<RemoteEvent>)
    ensures r.None? <==> forall k :: 0 <= k < |cache| ==> !Matches(cache[k], id)
    ensures r.Some? ==> exists k :: 0 <= k < |cache| && cache[k] == r.value && Matches(r.value, id)
                                    && forall j :: 0 <= j < k ==> !Matches(cache[j], id)
  {
    match FirstMatch(cache, id)
    case None => None
    case Some(k) => Some(cache[k])
  }

  /** Round trip of embedding and lookup: a cached event whose description
      was built by `Embed` for `id` is found, provided no event cached before
      it mentions `id`. */
  lemma EmbeddedIdIsFound(before: seq<RemoteEvent>, handle: string, description: string, suffix: string,
                          id: string, after: seq<RemoteEvent>)
    requires forall k :: 0 <= k < |before| ==> !Matches(before[k], id)
    ensures FindMirror(before + [RemoteEvent(handle, Embed(description, suffix, id))] + after, id)
            == Some(RemoteEvent(handle, Embed(description, suffix, id)))
  {
    var m := RemoteEvent(handle, Embed(description, suffix, id));
    var cache := before + [m] + after;
    assert cache[|before|] == m;
    assert forall k :: 0 <= k < |before| ==> cache[k] == before[k];
  }

  /** Every guild in `targets` is in the guild cache. */
  predicate Resolvable(guilds: GuildCache, targets: seq<string>)
  {
    forall i :: 0 <= i < |targets| ==> targets[i] in guilds
  }

  /** One lookup slot per distribution guild of a job (index.js
      `getJobEvents`): the guild's mirror of `id`, or nothing (the source logs
      a warning). A distribution guild missing from the cache makes the lookup
      throw; the failure carries that guild's id. */
  function GetJobEvents(guilds: GuildCache, job: MirrorJob, id: string): (r: Result<seq<Option<RemoteEvent>>, string>)
    ensures r.Success? <==> Resolvable(guilds, job.distribute)
    ensures r.Success? ==> |r.value| == |job.distribute|
    ensures r.Success? ==> forall i :: 0 <= i < |job.distribute| ==>
              job.distribute[i] in guilds && r.value[i] == FindMirror(guilds[job.distribute[i]], id)
    ensures r.Failure? ==> r.error in job.distribute && r.error !in guilds
  {
    LookupAll(guilds, job.distribute, id)
  }

  function LookupAll(guilds: GuildCache, targets: seq<string>, id: string): (r: Result<seq<Option<RemoteEvent>>, string>)
    ensures r.Success? <==> Resolvable(guilds, targets)
    ensures r.Success? ==> |r.value| == |targets|
    ensures r.Success? ==> forall i :: 0 <= i < |targets| ==>
              targets[i] in guilds && r.value[i] == FindMirror(guilds[targets[i]], id)
    ensures r.Failure? ==> r.error in targets && r.error !in guilds
  {
    if |targets| == 0 then Success([])
    else if targets[0] !in guilds then Failure(targets[0])
    else
      match LookupAll(guilds, targets[1..], id)
      case Failure(g) => Failure(g)
      case Success(rest) => Success([FindMirror(guilds[targets[0]], id)] + rest)
  }
}

=== FILE: job_matcher.dfy ===
/** Job selection (index.js `getJobList`): which mirror jobs an event
    notification concerns. */
module JobMatcher {

  import opened Seqs
  import opened Platform
  import opened Config

  /** The flag of `flags` that belongs to entity type `t`. */
  function OwnFlag(flags: TypeFlags, t: EntityType): bool
  {
    match t
    case StageInstance => flags.stageInstance
    case Voice => flags.voice
    case External => flags.external
  }

  /** The reference reading of job selection: the job listens to the event's
      guild and enables the event's own entity type. */
  predicate Selects(e: GuildEvent, job: MirrorJob)
  {
    e.guildId in job.listen && OwnFlag(job.types, e.entityType)
  }

  function Selector(e: GuildEvent): MirrorJob -> bool
  {
    (job: MirrorJob) => Selects(e, job)
  }

  // The four filters of getJobList, one per `.filter` call. Each type filter
  // passes every job unless the event has that type.

  function Listening(e: GuildEvent): MirrorJob -> bool
  {
    (job: MirrorJob) => e.guildId in job.listen
  }

  function StageGate(e: GuildEvent): MirrorJob -> bool
  {
    (job: MirrorJob) => if e.entityType == StageInstance then job.types.stageInstance else true
  }

  function VoiceGate(e: GuildEvent): MirrorJob -> bool
  {
    (job: MirrorJob) => if e.entityType == Voice then job.types.voice else true
  }

  function ExternalGate(e: GuildEvent): MirrorJob -> bool
  {
    (job: MirrorJob) => if e.entityType == External then job.types.external else true
  }

  /** The configured jobs that apply to `e`. A job is kept exactly when it
      listens to the event's guild and the flag of the event's own type is
      set; the flags of the other two types play no part. */
  function GetJobList(jobs: seq<MirrorJob>, e: GuildEvent): (r: seq<MirrorJob>)
    ensures forall job :: job in r <==> job in jobs && e.guildId in job.listen && OwnFlag(job.types, e.entityType)
  {
    Filter(Filter(Filter(Filter(jobs, Listening(e)), StageGate(e)), VoiceGate(e)), ExternalGate(e))
  }

  /** The chain of four filters is one filter by the reference predicate. */
  lemma GetJobListIsSelection(jobs: seq<MirrorJob>, e: GuildEvent)
    ensures GetJobList(jobs, e) == Filter(jobs, Selector(e))
  {
    var l, s, v, x := Listening(e), StageGate(e), VoiceGate(e), ExternalGate(e);
    var ls := (job: MirrorJob) => l(job) && s(job);
    var lsv := (job: MirrorJob) => ls(job) && v(job);
    calc {
      GetJobList(jobs, e);
      Filter(Filter(Filter(Filter(jobs, l), s), v), x);
      { FilterFilter(jobs, l, s, ls); }
      Filter(Filter(Filter(jobs, ls), v), x);
      { FilterFilter(jobs, ls, v, lsv); }
      Filter(Filter(jobs, lsv), x);
      { FilterFilter(jobs, lsv, x, Selector(e)); }
      Filter(jobs, Selector(e));
    }
  }

  /** The selected jobs appear in configuration order. */
  lemma JobListInConfigOrder(jobs: seq<MirrorJob>, e: GuildEvent)
    ensures IsSubsequence(GetJobList(jobs, e), jobs)
  {
    GetJobListIsSelection(jobs, e);
    FilterIsSubsequence(jobs, Selector(e));
  }

  /** `job` with the flags of the entity types other than `t` cleared. */
  function KeepOwnFlag(job: MirrorJob, t: EntityType): MirrorJob
  {
    var f := job.types;
    job.(types := match t
                  case StageInstance => TypeFlags(f.stageInstance, false, false)
                  case Voice => TypeFlags(false, f.voice, false)
                  case External => TypeFlags(false, false, f.external))
  }

  function KeepOwnFlags(jobs: seq<MirrorJob>, t: EntityType): (r: seq<MirrorJob>)
    ensures |r| == |jobs|
    ensures forall i :: 0 <= i < |jobs| ==> r[i] == KeepOwnFlag(jobs[i], t)
  {
    if |jobs| == 0 then [] else [KeepOwnFlag(jobs[0], t)] + KeepOwnFlags(jobs[1..], t)
  }

  lemma {:induction false} SelectionIgnoresOtherFlags(jobs: seq<MirrorJob>, jobs': seq<MirrorJob>, e: GuildEvent)
    requires KeepOwnFlags(jobs, e.entityType) == KeepOwnFlags(jobs', e.entityType)
    ensures KeepOwnFlags(Filter(jobs, Selector(e)), e.entityType) == KeepOwnFlags(Filter(jobs', Selector(e)), e.entityType)
  {
    var t, p := e.entityType, Selector(e);
    assert |jobs| == |KeepOwnFlags(jobs, t)| == |jobs'|;
    if |jobs| > 0 {
      assert KeepOwnFlags(jobs[1..], t) == KeepOwnFlags(jobs, t)[1..];
      assert KeepOwnFlags(jobs'[1..], t) == KeepOwnFlags(jobs', t)[1..];
      SelectionIgnoresOtherFlags(jobs[1..], jobs'[1..], e);
      var head, head' := jobs[0], jobs'[0];
      assert KeepOwnFlag(head, t) == KeepOwnFlags(jobs, t)[0] == KeepOwnFlag(head', t);
      assert p(head) == p(head');
      var rest, rest' := Filter(jobs[1..], p), Filter(jobs'[1..], p);
      if p(head) {
        assert Filter(jobs, p) == [head] + rest && Filter(jobs', p) == [head'] + rest';
        assert KeepOwnFlags([head] + rest, t) == [KeepOwnFlag(head, t)] + KeepOwnFlags(rest, t);
        assert KeepOwnFlags([head'] + rest', t) == [KeepOwnFlag(head', t)] + KeepOwnFlags(rest', t);
      } else {
        assert Filter(jobs, p) == rest && Filter(jobs', p) == rest';
      }
    }
  }

  /** Changing only the flags of the entity types the event does not have
      changes nothing in the job list but those same flags. */
  lemma OtherTypeFlagsNeverMatter(jobs: seq<MirrorJob>, jobs': seq<MirrorJob>, e: GuildEvent)
    requires KeepOwnFlags(jobs, e.entityType) == KeepOwnFlags(jobs', e.entityType)
    ensures KeepOwnFlags(GetJobList(jobs, e), e.entityType) == KeepOwnFlags(GetJobList(jobs', e), e.entityType)
  {
    GetJobListIsSelection(jobs, e);
    GetJobListIsSelection(jobs', e);
    SelectionIgnoresOtherFlags(jobs, jobs', e);
  }
}

=== FILE: platform.dfy ===
/** The slice of the Discord platform the bot's decision layer sees:
    scheduled events, the cached events of other guilds, channels, and the
    commands the bot issues back. The client library, the network and the
    caches themselves are outside the model; their contents arrive as
    immutable inputs. */
module Platform {

  import opened Results

  /** GuildScheduledEventEntityType. */
  datatype EntityType = StageInstance | Voice | External

  /** The numeric code the platform uses for an entity type. */
  function EntityTypeCode(t: EntityType): int
  {
    match t
    case StageInstance => 1
    case Voice => 2
    case External => 3
  }

  /** GuildScheduledEventStatus. */
  datatype EventStatus = Scheduled | Active | Completed | Canceled

  /** A scheduled event as delivered by a create/update/delete notification.
      `channelName` is the name of the bound channel (stage and voice events),
      `location` the free-text location (external events); `guildName` is the
      name of the guild that owns the event, and `link` is the text the
      platform renders when the event is interpolated into a message.
      A missing end timestamp is `None`; description, channel and location are
      plain strings. */
  datatype GuildEvent = GuildEvent(
    id: string,
    guildId: string,
    guildName: string,
    name: string,
    description: string,
    entityType: EntityType,
    scheduledStartTimestamp: int,
    scheduledEndTimestamp: Option<int>,
    channelName: string,
    location: string,
    status: EventStatus,
    link: string)

  /** An event found in another guild's event cache; `id` is the handle the
      platform commands act on. */
  datatype RemoteEvent = RemoteEvent(id: string, description: string)

  /** Guild id to the guild's cached scheduled events, in cache order. A guild
      the client has not cached is absent. */
  type GuildCache = map<string, seq<RemoteEvent>>

  /** Channel id to the id of the guild the channel belongs to. A channel the
      client cannot resolve is absent. */
  type ChannelCache = map<string, string>

  /** The payload of a create or edit: the copy of a source event that lives in
      a distribution guild. */
  datatype MirrorEvent = MirrorEvent(
    name: string,
    scheduledStartTime: int,
    scheduledEndTime: int,
    description: string,
    location: string,
    entityType: EntityType)

  /** The embed colour of an announcement. */
  datatype Colour = Green | Red

  /** A call into the platform. `Send` carries the optional plain-text content
      and the embed's description text. */
  datatype Command =
    | CreateEvent(guildId: string, mirror: MirrorEvent)
    | SetStatus(target: RemoteEvent, status: EventStatus)
    | EditEvent(target: RemoteEvent, mirror: MirrorEvent)
    | DeleteEvent(target: RemoteEvent)
    | Send(channelId: string, content: Option<string>, update: string, colour: Colour)
}

=== FILE: projector.dfy ===
/** Mirror projection (index.js `eventOverwrite`): the copy of a source event
    that is created in, or written over, a distribution guild.

    Deviations from the text of `eventOverwrite`, each the evident intent:
    - it reads `createdEvent` and `job`, which are not in its scope (as
      written, a ReferenceError); here the job is a parameter and the end
      time is read from the event being projected;
    - the stage and voice cases `return` before the location and entity
      type are set, so the function yields `undefined` for them; `Project`
      gives every event its mirror, and `ProjectAsWritten` keeps the early
      return for comparison;
    - it overwrites fields of the event it is given; `Project` returns a
      fresh record, and `OverwriteInPlace` and `OverwriteEach` model the
      overwriting itself, which the create handler as written repeats on
      one shared event. */
module Projector {

  import opened Results
  import opened Strings
  import opened Platform
  import opened Config
  import opened Correlation

  /** Two hours in milliseconds, the platform's default event length. */
  const DefaultDuration: int := 7200000

  /** The end timestamp counts only when it is truthy: a missing end and an
      end of 0 both fall back to the default. */
  predicate HasEnd(e: GuildEvent)
  {
    e.scheduledEndTimestamp.Some? && e.scheduledEndTimestamp.value != 0
  }

  function EndTime(e: GuildEvent): int
  {
    if HasEnd(e) then e.scheduledEndTimestamp.value else e.scheduledStartTimestamp + DefaultDuration
  }

  /** The human-readable location of the mirror, naming the source guild. */
  function Location(e: GuildEvent): string
  {
    match e.entityType
    case StageInstance => "Stage \"" + e.channelName + "\" in " + e.guildName
    case Voice => "VC \"" + e.channelName + "\" in " + e.guildName
    case External => "\"" + e.location + "\" in " + e.guildName
  }

  /** Reads the source event's entity type back from a location string. */
  function MediumOfLocation(location: string): Option<EntityType>
  {
    if "Stage \"" <= location then Some(StageInstance)
    else if "VC \"" <= location then Some(Voice)
    else if "\"" <= location then Some(External)
    else None
  }

  /** `text` in double quotes, followed by ` in `. */
  function Quoted(text: string): string
  {
    "\"" + text + "\" in "
  }

  /** The location records the source event's entity type, quotes the
      channel name (stage and voice) or the free-text location (external),
      and ends with the source guild's name. */
  lemma LocationRecordsMedium(e: GuildEvent)
    ensures MediumOfLocation(Location(e)) == Some(e.entityType)
    ensures e.entityType != External ==> Contains(Location(e), Quoted(e.channelName))
    ensures e.entityType == External ==> Contains(Location(e), Quoted(e.location))
    ensures |e.guildName| <= |Location(e)|
    ensures Location(e)[|Location(e)| - |e.guildName|..] == e.guildName
  {
    var loc := Location(e);
    match e.entityType
    case StageInstance =>
      assert loc == "Stage " + Quoted(e.channelName) + e.guildName;
      ContainsInfix("Stage ", Quoted(e.channelName), e.guildName);
      assert loc[..7] == "Stage \"";
    case Voice =>
      assert loc == "VC " + Quoted(e.channelName) + e.guildName;
      ContainsInfix("VC ", Quoted(e.channelName), e.guildName);
      assert loc[..4] == "VC \"" && loc[0] == 'V';
    case External =>
      assert loc == "" + Quoted(e.location) + e.guildName;
      ContainsInfix("", Quoted(e.location), e.guildName);
      assert loc[..1] == "\"" && loc[0] == '"';
  }

  /** The mirror of `e` for `job`: same name and start, the source's end or
      two hours after the start, the source description extended so that it
      ends with the source id, the location that names the source's medium
      (see `MirrorRecordsMedium`), and the entity type External (code 3). */
  function Project(e: GuildEvent, job: MirrorJob): (r: MirrorEvent)
    ensures r.name == e.name
    ensures r.scheduledStartTime == e.scheduledStartTimestamp
    ensures HasEnd(e) ==> r.scheduledEndTime == e.scheduledEndTimestamp.value
    ensures !HasEnd(e) ==> r.scheduledEndTime - r.scheduledStartTime == DefaultDuration
    ensures |r.description| == |e.description| + |SuffixBlock(job.eventDescSuffix)| + |e.id|
    ensures r.description[..|e.description|] == e.description
    ensures r.description[|e.description|..|r.description| - |e.id|] == SuffixBlock(job.eventDescSuffix)
    ensures r.description[|r.description| - |e.id|..] == e.id
    ensures Contains(r.description, e.id)
    ensures r.entityType == External && EntityTypeCode(r.entityType) == 3
  {
    MirrorEvent(
      e.name,
      e.scheduledStartTimestamp,
      EndTime(e),
      Embed(e.description, job.eventDescSuffix, e.id),
      Location(e),
      External)
  }

  /** Although every mirror is External, its location tells which kind of
      channel the source event used and quotes its channel or location. */
  lemma MirrorRecordsMedium(e: GuildEvent, job: MirrorJob)
    ensures MediumOfLocation(Project(e, job).location) == Some(e.entityType)
    ensures e.entityType != External ==> Contains(Project(e, job).location, Quoted(e.channelName))
    ensures e.entityType == External ==> Contains(Project(e, job).location, Quoted(e.location))
    ensures Project(e, job).entityType == External
  {
    LocationRecordsMedium(e);
  }

  /** `eventOverwrite` as written: for stage and voice events the `return`
      inside the switch leaves the function before the location and entity
      type are set, so it yields `undefined`. Only external events produce a
      mirror. */
  function ProjectAsWritten(e: GuildEvent, job: MirrorJob): Option<MirrorEvent>
  {
    match e.entityType
    case StageInstance => None
    case Voice => None
    case External => Some(Project(e, job))
  }

  /** The discrepancy: as written, every stage or voice event loses its
      mirror, while the corrected projection gives every event one. */
  lemma AsWrittenDropsStageAndVoice(e: GuildEvent, job: MirrorJob)
    ensures ProjectAsWritten(e, job).None? <==> e.entityType != External
    ensures e.entityType == External ==> ProjectAsWritten(e, job) == Some(Project(e, job))
  {
  }

  /** `eventOverwrite` as written also writes into the event it was given:
      the description becomes the projection's, and for an external event
      the location becomes the projection's location. Nothing else that the
      projection reads changes. */
  function OverwriteInPlace(e: GuildEvent, job: MirrorJob): (r: GuildEvent)
    ensures r.description == Project(e, job).description
    ensures e.entityType == External ==> r.location == Project(e, job).location
    ensures e.entityType != External ==> r.location == e.location
    ensures r == e.(description := r.description, location := r.location)
  {
    e.(description := Embed(e.description, job.eventDescSuffix, e.id),
       location := if e.entityType == External then Quoted(e.location) + e.guildName else e.location)
  }

  /** The event after `eventOverwrite` ran on it once per job of `jobs`, in
      order. Each run appends another suffix block and id, so the
      description keeps the original as a prefix and grows by at least the
      id and three line breaks per run. */
  function OverwriteEach(e: GuildEvent, jobs: seq<MirrorJob>): (r: GuildEvent)
    ensures r == e.(description := r.description, location := r.location)
    ensures e.description <= r.description
    ensures |r.description| >= |e.description| + |jobs| * (|e.id| + 3)
    decreases |jobs|
  {
    if |jobs| == 0 then e
    else
      var once := OverwriteInPlace(e, jobs[0]);
      var r := OverwriteEach(once, jobs[1..]);
      assert e.description <= once.description;
      assert |once.description| >= |e.description| + |e.id| + 3;
      assert (|jobs| - 1) * (|e.id| + 3) + (|e.id| + 3) == |jobs| * (|e.id| + 3);
      r
  }

  /** Two runs for the same job: the second appends the suffix block and the
      id once more, and an external location is quoted a second time. */
  lemma OverwriteTwice(e: GuildEvent, job: MirrorJob)
    ensures OverwriteEach(e, [job, job]).description
            == Project(e, job).description + SuffixBlock(job.eventDescSuffix) + e.id
    ensures e.entityType == External ==>
              OverwriteEach(e, [job, job]).location == Quoted(Project(e, job).location) + e.guildName
  {
    var once := OverwriteInPlace(e, job);
    assert [job, job][1..] == [job];
    assert [job][1..] == [];
    assert OverwriteEach(once, []) == once;
    assert OverwriteEach(once, [job]) == OverwriteEach(OverwriteInPlace(once, job), []);
    assert OverwriteEach(e, [job, job]) == OverwriteEach(once, [job]);
  }

  /** A mirror created from `Project` in a guild whose cache did not yet
      mention the source id is the one the lookup finds for that id. */
  lemma ProjectedMirrorIsFound(before: seq<RemoteEvent>, handle: string, e: GuildEvent, job: MirrorJob,
                               after: seq<RemoteEvent>)
    requires forall k :: 0 <= k < |before| ==> !Matches(before[k], e.id)
    ensures FindMirror(before + [RemoteEvent(handle, Project(e, job).description)] + after, e.id)
            == Some(RemoteEvent(handle, Project(e, job).description))
  {
    EmbeddedIdIsFound(before, handle, e.description, job.eventDescSuffix, e.id, after);
  }
}

=== FILE: reconcile.dfy ===
/** The mirroring handlers of index.js: what a create, update or delete
    notification for a source event turns into, as the list of platform
    commands issued. Each handler's fan-out is fire-and-forget in the source;
    here it is the deterministic list of intended commands, in the order the
    source issues them.

    Deviations from the text of the handlers, each the evident intent:
    - create passes `updatedEvent`, which is not in scope (as written, a
      ReferenceError), to the projection; the created event is projected
      instead, afresh for every target (`OnCreateAsWritten` keeps the
      repeated overwriting of the one shared event for comparison);
    - `getJobEvents` matches on `deletedEvent.id`, which is not in scope (as
      written, a ReferenceError); the id of the notified event is passed in;
    - the update handler maps jobs to a list of lists of slots and then treats
      it as a flat list of events; it is flattened here, and an edit carries
      the projection for the job the mirror was found through
      (`OnUpdateAsWritten` keeps the handler as written for comparison);
    - absent slots are skipped (the source would call a method on
      `undefined`); `DeleteJobsAsWritten` keeps the delete handler as
      written for comparison. */
module Reconcile {

  import opened Results
  import opened Seqs
  import opened Strings
  import opened Platform
  import opened Config
  import opened JobMatcher
  import opened Correlation
  import opened Projector

  /** The outcome of one handler pass: the commands issued and the
      distribution guilds that could not be resolved from the guild cache. */
  datatype Pass = Pass(commands: seq<Command>, unresolved: seq<string>)

  /** The outcome of a handler as written, which can throw part-way: the
      commands issued before the throw, and whether it threw. */
  datatype Partial = Partial(commands: seq<Command>, aborted: bool)

  /** How many (job, distribution guild) pairs `sel` names. */
  function PairCount(sel: seq<MirrorJob>): nat
  {
    if |sel| == 0 then 0 else |sel[0].distribute| + PairCount(sel[1..])
  }

  /** Every distribution guild of every job in `sel` is cached. */
  predicate AllResolvable(guilds: GuildCache, sel: seq<MirrorJob>)
  {
    forall i :: 0 <= i < |sel| ==> Resolvable(guilds, sel[i].distribute)
  }

  // ------------------------------------------------------------------
  // create (index.js:106-117)
  // ------------------------------------------------------------------

  /** The guild is in the client's guild cache. */
  function Cached(guilds: GuildCache): string -> bool
  {
    (g: string) => g in guilds
  }

  function Uncached(guilds: GuildCache): string -> bool
  {
    (g: string) => g !in guilds
  }

  /** How many (job, distribution guild) pairs of `sel` name a cached guild. */
  function CachedPairCount(guilds: GuildCache, sel: seq<MirrorJob>): nat
  {
    if |sel| == 0 then 0 else |Filter(sel[0].distribute, Cached(guilds))| + CachedPairCount(guilds, sel[1..])
  }

  /** The uncached distribution guilds of `sel`, job by job, in order. */
  function UncachedTargets(guilds: GuildCache, sel: seq<MirrorJob>): seq<string>
  {
    if |sel| == 0 then [] else Filter(sel[0].distribute, Uncached(guilds)) + UncachedTargets(guilds, sel[1..])
  }

  /** A create of `mirror` in each guild of `gs`, in order. */
  function CreatesFor(gs: seq<string>, mirror: MirrorEvent): (r: seq<Command>)
    ensures |r| == |gs|
    ensures forall k :: 0 <= k < |gs| ==> r[k] == CreateEvent(gs[k], mirror)
    ensures forall c :: c in r ==> c.CreateEvent? && c.guildId in gs && c.mirror == mirror
    ensures forall g :: g in gs ==> CreateEvent(g, mirror) in r
  {
    if |gs| == 0 then [] else [CreateEvent(gs[0], mirror)] + CreatesFor(gs[1..], mirror)
  }

  /** One create per distribution guild of `job`. Each guild is handled by
      its own task, so a guild missing from the cache fails alone: the
      creates are exactly those for the cached guilds, in order, and the
      uncached guilds are reported, in order. */
  function CreateTargets(guilds: GuildCache, job: MirrorJob, e: GuildEvent, targets: seq<string>): (r: Pass)
    ensures r.commands == CreatesFor(Filter(targets, Cached(guilds)), Project(e, job))
    ensures r.unresolved == Filter(targets, Uncached(guilds))
  {
    if |targets| == 0 then Pass([], [])
    else
      var rest := CreateTargets(guilds, job, e, targets[1..]);
      if targets[0] in guilds then
        Pass([CreateEvent(targets[0], Project(e, job))] + rest.commands, rest.unresolved)
      else
        Pass(rest.commands, [targets[0]] + rest.unresolved)
  }

  /** A distribution guild together with the job that distributes to it. */
  datatype Pair = Pair(job: MirrorJob, guildId: string)

  /** The pairs of `job` with each of the guilds `gs`, in order. */
  function PairsOf(job: MirrorJob, gs: seq<string>): (r: seq<Pair>)
    ensures |r| == |gs|
    ensures forall k :: 0 <= k < |gs| ==> r[k] == Pair(job, gs[k])
  {
    seq(|gs|, k requires 0 <= k < |gs| => Pair(job, gs[k]))
  }

  /** The (job, cached distribution guild) pairs of `sel`, job by job and,
      within a job, in distribution order; a guild listed twice gives two
      pairs. */
  function CachedPairs(guilds: GuildCache, sel: seq<MirrorJob>): (r: seq<Pair>)
    ensures |r| == CachedPairCount(guilds, sel)
  {
    if |sel| == 0 then []
    else PairsOf(sel[0], Filter(sel[0].distribute, Cached(guilds))) + CachedPairs(guilds, sel[1..])
  }

  /** `cs` creates, position by position, the projection of each pair's job
      in that pair's guild. */
  predicate CreatesPairs(cs: seq<Command>, pairs: seq<Pair>, e: GuildEvent)
  {
    |cs| == |pairs|
    && forall k :: 0 <= k < |cs| ==> cs[k] == CreateEvent(pairs[k].guildId, Project(e, pairs[k].job))
  }

  lemma CreatesPairsAppend(a: seq<Command>, head: seq<Pair>, b: seq<Command>, tail: seq<Pair>, e: GuildEvent)
    requires CreatesPairs(a, head, e) && CreatesPairs(b, tail, e)
    ensures CreatesPairs(a + b, head + tail, e)
  {
    forall k | 0 <= k < |a + b|
      ensures (a + b)[k] == CreateEvent((head + tail)[k].guildId, Project(e, (head + tail)[k].job))
    {
      if k < |a| {
        assert (a + b)[k] == a[k] && (head + tail)[k] == head[k];
      } else {
        assert (a + b)[k] == b[k - |a|] && (head + tail)[k] == tail[k - |a|];
      }
    }
  }

  /** The create fan-out over all selected jobs: the `k`-th create is the
      projection of the `k`-th cached pair's job into that pair's guild, so
      every pair gets exactly one create, in order. */
  function CreateJobs(guilds: GuildCache, sel: seq<MirrorJob>, e: GuildEvent): (r: Pass)
    ensures |r.commands| == CachedPairCount(guilds, sel)
    ensures CreatesPairs(r.commands, CachedPairs(guilds, sel), e)
    ensures r.unresolved == UncachedTargets(guilds, sel)
  {
    if |sel| == 0 then Pass([], [])
    else
      var first := CreateTargets(guilds, sel[0], e, sel[0].distribute);
      var rest := CreateJobs(guilds, sel[1..], e);
      var head := PairsOf(sel[0], Filter(sel[0].distribute, Cached(guilds)));
      assert CreatesPairs(first.commands, head, e);
      CreatesPairsAppend(first.commands, head, rest.commands, CachedPairs(guilds, sel[1..]), e);
      Pass(first.commands + rest.commands, first.unresolved + rest.unresolved)
  }

  /** Every create is of a selected job's projection, in one of its cached
      distribution guilds. */
  lemma {:induction false} CreateJobsSound(guilds: GuildCache, sel: seq<MirrorJob>, e: GuildEvent)
    ensures forall c :: c in CreateJobs(guilds, sel, e).commands ==>
              c.CreateEvent? && c.guildId in guilds
              && exists job :: job in sel && c.guildId in job.distribute && c.mirror == Project(e, job)
  {
    if |sel| > 0 {
      var job0 := sel[0];
      var first := CreateTargets(guilds, job0, e, job0.distribute);
      var rest := CreateJobs(guilds, sel[1..], e);
      CreateJobsSound(guilds, sel[1..], e);
      assert CreateJobs(guilds, sel, e).commands == first.commands + rest.commands;
      forall c | c in CreateJobs(guilds, sel, e).commands
        ensures c.CreateEvent? && c.guildId in guilds
                && exists job :: job in sel && c.guildId in job.distribute && c.mirror == Project(e, job)
      {
        if c in first.commands {
          assert c.guildId in Filter(job0.distribute, Cached(guilds));
          assert job0 in sel;
        } else {
          var job :| job in sel[1..] && c.guildId in job.distribute && c.mirror == Project(e, job);
          assert job in sel;
        }
      }
    }
  }

  /** Every pair of a selected job and one of its cached distribution guilds
      gets its create. */
  lemma {:induction false} CreateJobsComplete(guilds: GuildCache, sel: seq<MirrorJob>, e: GuildEvent)
    ensures forall job, g :: job in sel && g in job.distribute && g in guilds ==>
              CreateEvent(g, Project(e, job)) in CreateJobs(guilds, sel, e).commands
  {
    if |sel| > 0 {
      var job0 := sel[0];
      var first := CreateTargets(guilds, job0, e, job0.distribute);
      var rest := CreateJobs(guilds, sel[1..], e);
      CreateJobsComplete(guilds, sel[1..], e);
      assert CreateJobs(guilds, sel, e).commands == first.commands + rest.commands;
      forall job, g | job in sel && g in job.distribute && g in guilds
        ensures CreateEvent(g, Project(e, job)) in CreateJobs(guilds, sel, e).commands
      {
        if job == job0 {
          assert g in Filter(job0.distribute, Cached(guilds));
          assert CreateEvent(g, Project(e, job)) in first.commands;
        } else {
          assert job in sel[1..];
          assert CreateEvent(g, Project(e, job)) in rest.commands;
        }
      }
    }
  }

  /** Every (job, distribution guild) pair yields a create or an unresolved
      guild. */
  lemma {:induction false} CachedOrUncached(guilds: GuildCache, sel: seq<MirrorJob>)
    ensures CachedPairCount(guilds, sel) + |UncachedTargets(guilds, sel)| == PairCount(sel)
  {
    if |sel| > 0 {
      FilterPartition(sel[0].distribute, Cached(guilds), Uncached(guilds));
      CachedOrUncached(guilds, sel[1..]);
    }
  }

  /** The reported guilds are exactly the uncached distribution guilds. */
  lemma {:induction false} UncachedTargetsAreUncached(guilds: GuildCache, sel: seq<MirrorJob>)
    ensures forall g :: g in UncachedTargets(guilds, sel) <==>
              exists job :: job in sel && g in job.distribute && g !in guilds
  {
    if |sel| > 0 {
      UncachedTargetsAreUncached(guilds, sel[1..]);
      assert forall job :: job in sel <==> job == sel[0] || job in sel[1..];
    }
  }

  /** The create handler: for every selected job and every one of its cached
      distribution guilds, create the job's mirror of `e` in that guild, and
      nothing else. Each created mirror carries the source id, so later
      lookups find it. */
  function OnCreate(jobs: seq<MirrorJob>, guilds: GuildCache, e: GuildEvent): (r: Pass)
    ensures |r.commands| == CachedPairCount(guilds, GetJobList(jobs, e))
    ensures CreatesPairs(r.commands, CachedPairs(guilds, GetJobList(jobs, e)), e)
    ensures |r.commands| + |r.unresolved| == PairCount(GetJobList(jobs, e))
    ensures forall g :: g in r.unresolved <==>
              exists job :: job in jobs && Selects(e, job) && g in job.distribute && g !in guilds
    ensures forall c :: c in r.commands ==>
              c.CreateEvent? && c.guildId in guilds
              && Contains(c.mirror.description, e.id) && c.mirror.entityType == External
              && exists job :: job in jobs && Selects(e, job) && c.guildId in job.distribute && c.mirror == Project(e, job)
    ensures forall job, g :: job in jobs && Selects(e, job) && g in job.distribute && g in guilds ==>
              CreateEvent(g, Project(e, job)) in r.commands
  {
    CachedOrUncached(guilds, GetJobList(jobs, e));
    UncachedTargetsAreUncached(guilds, GetJobList(jobs, e));
    CreateJobsSound(guilds, GetJobList(jobs, e), e);
    CreateJobsComplete(guilds, GetJobList(jobs, e), e);
    CreateJobs(guilds, GetJobList(jobs, e), e)
  }

  /** The job of each (job, distribution guild) pair of `sel`, in order. */
  function PairJobs(sel: seq<MirrorJob>): (r: seq<MirrorJob>)
    ensures |r| == PairCount(sel)
    ensures forall job :: job in r ==> job in sel
  {
    if |sel| == 0 then []
    else
      var rest := PairJobs(sel[1..]);
      assert forall job :: job in rest ==> job in sel;
      seq(|sel[0].distribute|, _ => sel[0]) + rest
  }

  /** The cached distribution guilds of `sel`, job by job, in order. */
  function CachedTargets(guilds: GuildCache, sel: seq<MirrorJob>): (r: seq<string>)
    ensures |r| == CachedPairCount(guilds, sel)
    ensures forall g :: g in r ==> g in guilds
  {
    if |sel| == 0 then [] else Filter(sel[0].distribute, Cached(guilds)) + CachedTargets(guilds, sel[1..])
  }

  /** The create handler as written. Every pair's task calls `eventOverwrite`
      on the one event object before its first `await`, so all the
      overwrites happen first and every create then sends that object as it
      is after all of them. Stage and voice events produce no mirror at all
      (see `ProjectAsWritten`), and an uncached guild fails its own task. */
  function OnCreateAsWritten(jobs: seq<MirrorJob>, guilds: GuildCache, e: GuildEvent): (r: Pass)
    ensures e.entityType != External ==> r.commands == []
    ensures e.entityType == External ==> |r.commands| == CachedPairCount(guilds, GetJobList(jobs, e))
    ensures forall c :: c in r.commands ==> c.CreateEvent? && c.guildId in guilds
    ensures r.unresolved == UncachedTargets(guilds, GetJobList(jobs, e))
  {
    var sel := GetJobList(jobs, e);
    if e.entityType != External then Pass([], UncachedTargets(guilds, sel))
    else
      var shared := OverwriteEach(e, PairJobs(sel));
      var sent := MirrorEvent(shared.name, shared.scheduledStartTimestamp, EndTime(e),
                              shared.description, shared.location, External);
      Pass(CreatesFor(CachedTargets(guilds, sel), sent), UncachedTargets(guilds, sel))
  }

  /** The discrepancy: an external event mirrored by one job into two cached
      guilds. As written, both creates send the shared event after two
      overwrites, whose description carries the suffix block and id twice
      and whose location quotes the projection's location; the corrected
      handler creates the projection in each guild (`CreateTwoTargets`). */
  lemma AsWrittenCreateRepeatsSuffix(jobs: seq<MirrorJob>, guilds: GuildCache, e: GuildEvent, job: MirrorJob,
                                     g1: string, g2: string)
    requires e.entityType == External && GetJobList(jobs, e) == [job]
    requires job.distribute == [g1, g2] && g1 in guilds && g2 in guilds
    ensures var r := OnCreateAsWritten(jobs, guilds, e).commands;
            |r| == 2 && r[0].guildId == g1 && r[1].guildId == g2 && r[0].mirror == r[1].mirror
            && r[0].mirror.description == Project(e, job).description + SuffixBlock(job.eventDescSuffix) + e.id
            && r[0].mirror.location == Quoted(Project(e, job).location) + e.guildName
            && r[0].mirror != Project(e, job)
  {
    var sel := [job];
    assert sel[1..] == [];
    assert PairJobs(sel) == [job, job];
    assert Filter(job.distribute, Cached(guilds)) == [g1, g2] by {
      assert job.distribute[1..] == [g2];
      assert job.distribute[1..][1..] == [];
    }
    assert CachedTargets(guilds, sel) == [g1, g2];
    OverwriteTwice(e, job);
    var r := OnCreateAsWritten(jobs, guilds, e).commands;
    assert |r[0].mirror.description| > |Project(e, job).description|;
  }

  /** The create fan-out of one job over two cached guilds. */
  lemma CreateJobsTwoTargets(guilds: GuildCache, e: GuildEvent, job: MirrorJob, g1: string, g2: string)
    requires job.distribute == [g1, g2] && g1 in guilds && g2 in guilds
    ensures CreateJobs(guilds, [job], e).commands == [CreateEvent(g1, Project(e, job)), CreateEvent(g2, Project(e, job))]
  {
    assert job.distribute[1..] == [g2];
    assert job.distribute[1..][1..] == [];
    var first := CreateTargets(guilds, job, e, job.distribute);
    assert first.commands == [CreateEvent(g1, Project(e, job)), CreateEvent(g2, Project(e, job))];
    assert [job][1..] == [];
    assert CreateJobs(guilds, [job], e).commands == first.commands + CreateJobs(guilds, [], e).commands;
  }

  /** The corrected handler on the same input creates the projection in
      each of the two guilds. */
  lemma CreateTwoTargets(jobs: seq<MirrorJob>, guilds: GuildCache, e: GuildEvent, job: MirrorJob,
                         g1: string, g2: string)
    requires GetJobList(jobs, e) == [job]
    requires job.distribute == [g1, g2] && g1 in guilds && g2 in guilds
    ensures OnCreate(jobs, guilds, e).commands == [CreateEvent(g1, Project(e, job)), CreateEvent(g2, Project(e, job))]
  {
    CreateJobsTwoTargets(guilds, e, job, g1, g2);
  }

  // ------------------------------------------------------------------
  // the mirrors a pass acts on
  // ------------------------------------------------------------------

  /** The mirrors of `id` in the guilds `targets`, by direct lookup. */
  function FoundIn(guilds: GuildCache, targets: seq<string>, id: string): (r: seq<RemoteEvent>)
    requires Resolvable(guilds, targets)
    ensures forall m :: m in r ==> Matches(m, id)
  {
    if |targets| == 0 then []
    else
      match FindMirror(guilds[targets[0]], id)
      case Some(m) => [m] + FoundIn(guilds, targets[1..], id)
      case None => FoundIn(guilds, targets[1..], id)
  }

  /** How many of `targets` hold no mirror of `id`; the source logs one
      warning for each. */
  function MissingIn(guilds: GuildCache, targets: seq<string>, id: string): nat
    requires Resolvable(guilds, targets)
  {
    if |targets| == 0 then 0
    else (if FindMirror(guilds[targets[0]], id).None? then 1 else 0) + MissingIn(guilds, targets[1..], id)
  }

  /** The mirrors of `id` over all distribution guilds of `sel`, job by job. */
  function FoundMirrors(guilds: GuildCache, sel: seq<MirrorJob>, id: string): (r: seq<RemoteEvent>)
    requires AllResolvable(guilds, sel)
  {
    if |sel| == 0 then [] else FoundIn(guilds, sel[0].distribute, id) + FoundMirrors(guilds, sel[1..], id)
  }

  /** A found mirror together with the job it was found through. */
  datatype Found = Found(job: MirrorJob, mirror: RemoteEvent)

  /** The entries of `job` for each of the mirrors `ms`, in order. */
  function FoundOf(job: MirrorJob, ms: seq<RemoteEvent>): (r: seq<Found>)
    ensures |r| == |ms|
    ensures forall k :: 0 <= k < |ms| ==> r[k] == Found(job, ms[k])
  {
    seq(|ms|, k requires 0 <= k < |ms| => Found(job, ms[k]))
  }

  /** The found mirrors of the selected jobs, each with the job it was found
      through, job by job; a mirror found through two jobs appears once for
      each of them. */
  function FoundEntries(guilds: GuildCache, sel: seq<MirrorJob>, id: string): (r: seq<Found>)
    requires AllResolvable(guilds, sel)
    ensures |r| == |FoundMirrors(guilds, sel, id)|
  {
    if |sel| == 0 then []
    else FoundOf(sel[0], FoundIn(guilds, sel[0].distribute, id)) + FoundEntries(guilds, sel[1..], id)
  }

  function Missing(guilds: GuildCache, sel: seq<MirrorJob>, id: string): nat
    requires AllResolvable(guilds, sel)
  {
    if |sel| == 0 then 0 else MissingIn(guilds, sel[0].distribute, id) + Missing(guilds, sel[1..], id)
  }

  lemma {:induction false} FoundInCount(guilds: GuildCache, targets: seq<string>, id: string)
    requires Resolvable(guilds, targets)
    ensures |FoundIn(guilds, targets, id)| + MissingIn(guilds, targets, id) == |targets|
  {
    if |targets| > 0 {
      FoundInCount(guilds, targets[1..], id);
    }
  }

  /** Every distribution guild either yields a mirror or one warning. */
  lemma {:induction false} FoundOrWarned(guilds: GuildCache, sel: seq<MirrorJob>, id: string)
    requires AllResolvable(guilds, sel)
    ensures |FoundMirrors(guilds, sel, id)| + Missing(guilds, sel, id) == PairCount(sel)
  {
    if |sel| > 0 {
      FoundInCount(guilds, sel[0].distribute, id);
      FoundOrWarned(guilds, sel[1..], id);
    }
  }

  /** The present slots of a job's lookup are exactly its directly looked-up
      mirrors. */
  lemma {:induction false} PresentSlotsAreFound(guilds: GuildCache, targets: seq<string>, id: string)
    requires Resolvable(guilds, targets)
    ensures LookupAll(guilds, targets, id).Success?
    ensures Present(LookupAll(guilds, targets, id).value) == FoundIn(guilds, targets, id)
  {
    if |targets| > 0 {
      PresentSlotsAreFound(guilds, targets[1..], id);
      var slots := LookupAll(guilds, targets, id).value;
      assert slots[1..] == LookupAll(guilds, targets[1..], id).value;
    }
  }

  /** The lookups of one notification: the mirror slots of every selected job,
      in order, or the first failing lookup's unresolved guild. */
  datatype JobMirrors = JobMirrors(job: MirrorJob, slots: seq<Option<RemoteEvent>>)

  function CollectMirrors(guilds: GuildCache, sel: seq<MirrorJob>, id: string): (r: Result<seq<JobMirrors>, string>)
    ensures r.Success? <==> AllResolvable(guilds, sel)
    ensures r.Success? ==> |r.value| == |sel|
    ensures r.Success? ==> forall i :: 0 <= i < |sel| ==>
              r.value[i].job == sel[i] && GetJobEvents(guilds, sel[i], id) == Success(r.value[i].slots)
    ensures r.Success? ==> forall jm :: jm in r.value ==>
              jm.job in sel && Resolvable(guilds, jm.job.distribute)
              && LookupAll(guilds, jm.job.distribute, id) == Success(jm.slots)
    ensures r.Failure? ==> r.error !in guilds
  {
    if |sel| == 0 then Success([])
    else
      match GetJobEvents(guilds, sel[0], id)
      case Failure(g) => Failure(g)
      case Success(slots) =>
        match CollectMirrors(guilds, sel[1..], id)
        case Failure(g) => Failure(g)
        case Success(rest) => Success([JobMirrors(sel[0], slots)] + rest)
  }

  /** Collecting the lookups finds exactly the directly looked-up mirrors. */
  lemma {:induction false} CollectedAreFound(guilds: GuildCache, sel: seq<MirrorJob>, id: string)
    requires AllResolvable(guilds, sel)
    ensures CollectMirrors(guilds, sel, id).Success?
    ensures Flattened(CollectMirrors(guilds, sel, id).value) == FoundMirrors(guilds, sel, id)
  {
    if |sel| > 0 {
      assert AllResolvable(guilds, sel[1..]) by {
        forall i | 0 <= i < |sel[1..]| ensures Resolvable(guilds, sel[1..][i].distribute) {
          assert sel[1..][i] == sel[i + 1];
        }
      }
      CollectedAreFound(guilds, sel[1..], id);
      PresentSlotsAreFound(guilds, sel[0].distribute, id);
      var jms := CollectMirrors(guilds, sel, id).value;
      assert jms[1..] == CollectMirrors(guilds, sel[1..], id).value;
    }
  }

  /** The present slots of collected lookups, each with the job whose lookup
      it came from. */
  function CollectedEntries(jms: seq<JobMirrors>): seq<Found>
  {
    if |jms| == 0 then [] else FoundOf(jms[0].job, Present(jms[0].slots)) + CollectedEntries(jms[1..])
  }

  /** The collected lookups pair every found mirror with its own job. */
  lemma {:induction false} CollectedEntriesAreFound(guilds: GuildCache, sel: seq<MirrorJob>, id: string)
    requires AllResolvable(guilds, sel)
    ensures CollectMirrors(guilds, sel, id).Success?
    ensures CollectedEntries(CollectMirrors(guilds, sel, id).value) == FoundEntries(guilds, sel, id)
  {
    if |sel| > 0 {
      TailResolvable(guilds, sel);
      CollectedEntriesAreFound(guilds, sel[1..], id);
      PresentSlotsAreFound(guilds, sel[0].distribute, id);
      var jms := CollectMirrors(guilds, sel, id).value;
      assert jms[1..] == CollectMirrors(guilds, sel[1..], id).value;
    }
  }

  /** The found mirrors of collected lookups, job by job. */
  function Flattened(jms: seq<JobMirrors>): seq<RemoteEvent>
  {
    if |jms| == 0 then [] else Present(jms[0].slots) + Flattened(jms[1..])
  }

  // ------------------------------------------------------------------
  // update (index.js:120-132)
  // ------------------------------------------------------------------

  /** Set the status of each mirror, in order. */
  function StatusCommands(ms: seq<RemoteEvent>, status: EventStatus): (r: seq<Command>)
    ensures |r| == |ms|
    ensures forall k :: 0 <= k < |ms| ==> r[k] == SetStatus(ms[k], status)
  {
    if |ms| == 0 then [] else [SetStatus(ms[0], status)] + StatusCommands(ms[1..], status)
  }

  /** Overwrite each mirror with a projection, in order. */
  function EditCommands(ms: seq<RemoteEvent>, mirror: MirrorEvent): (r: seq<Command>)
    ensures |r| == |ms|
    ensures forall k :: 0 <= k < |ms| ==> r[k] == EditEvent(ms[k], mirror)
  {
    if |ms| == 0 then [] else [EditEvent(ms[0], mirror)] + EditCommands(ms[1..], mirror)
  }

  /** For the general-update branch: each job's found mirrors are edited to
      that job's projection of `e`. */
  function EditJobs(jms: seq<JobMirrors>, e: GuildEvent): seq<Command>
  {
    if |jms| == 0 then []
    else EditCommands(Present(jms[0].slots), Project(e, jms[0].job)) + EditJobs(jms[1..], e)
  }

  /** A command that acts on an existing event. */
  predicate Targeted(c: Command)
  {
    c.SetStatus? || c.EditEvent? || c.DeleteEvent?
  }

  /** The events the targeted commands of `cs` act on, in order. */
  function TargetsOf(cs: seq<Command>): seq<RemoteEvent>
  {
    if |cs| == 0 then []
    else (if Targeted(cs[0]) then [cs[0].target] else []) + TargetsOf(cs[1..])
  }

  lemma {:induction false} TargetsOfConcat(a: seq<Command>, b: seq<Command>)
    ensures TargetsOf(a + b) == TargetsOf(a) + TargetsOf(b)
  {
    if |a| == 0 {
      assert a + b == b;
    } else {
      var head := if Targeted(a[0]) then [a[0].target] else [];
      assert (a + b)[0] == a[0];
      assert (a + b)[1..] == a[1..] + b;
      TargetsOfConcat(a[1..], b);
      assert TargetsOf(a + b) == head + TargetsOf(a[1..] + b);
      assert TargetsOf(a) == head + TargetsOf(a[1..]);
    }
  }

  lemma {:induction false} StatusCommandsTargets(ms: seq<RemoteEvent>, status: EventStatus)
    ensures TargetsOf(StatusCommands(ms, status)) == ms
  {
    if |ms| > 0 {
      StatusCommandsTargets(ms[1..], status);
    }
  }

  lemma {:induction false} EditCommandsTargets(ms: seq<RemoteEvent>, mirror: MirrorEvent)
    ensures TargetsOf(EditCommands(ms, mirror)) == ms
  {
    if |ms| > 0 {
      EditCommandsTargets(ms[1..], mirror);
    }
  }

  lemma {:induction false} DeleteCommandsTargets(ms: seq<RemoteEvent>)
    ensures TargetsOf(DeleteCommands(ms)) == ms
  {
    if |ms| > 0 {
      DeleteCommandsTargets(ms[1..]);
    }
  }

  /** Edits for the general-update branch act on the found mirrors, in order. */
  lemma {:induction false} EditJobsTargets(jms: seq<JobMirrors>, e: GuildEvent)
    ensures TargetsOf(EditJobs(jms, e)) == Flattened(jms)
    ensures |EditJobs(jms, e)| == |Flattened(jms)|
  {
    if |jms| > 0 {
      EditJobsTargets(jms[1..], e);
      var head := EditCommands(Present(jms[0].slots), Project(e, jms[0].job));
      EditCommandsTargets(Present(jms[0].slots), Project(e, jms[0].job));
      TargetsOfConcat(head, EditJobs(jms[1..], e));
    }
  }

  /** `cs` edits, position by position, each entry's mirror to the
      projection for that entry's job. */
  predicate EditsFound(cs: seq<Command>, found: seq<Found>, e: GuildEvent)
  {
    |cs| == |found|
    && forall k :: 0 <= k < |cs| ==> cs[k] == EditEvent(found[k].mirror, Project(e, found[k].job))
  }

  lemma EditsFoundAppend(a: seq<Command>, head: seq<Found>, b: seq<Command>, tail: seq<Found>, e: GuildEvent)
    requires EditsFound(a, head, e) && EditsFound(b, tail, e)
    ensures EditsFound(a + b, head + tail, e)
  {
    forall k | 0 <= k < |a + b|
      ensures (a + b)[k] == EditEvent((head + tail)[k].mirror, Project(e, (head + tail)[k].job))
    {
      if k < |a| {
        assert (a + b)[k] == a[k] && (head + tail)[k] == head[k];
      } else {
        assert (a + b)[k] == b[k - |a|] && (head + tail)[k] == tail[k - |a|];
      }
    }
  }

  /** The `k`-th edit of a general update overwrites the `k`-th found mirror
      with the projection for the job it was found through. */
  lemma {:induction false} EditJobsPositional(jms: seq<JobMirrors>, e: GuildEvent)
    ensures EditsFound(EditJobs(jms, e), CollectedEntries(jms), e)
  {
    if |jms| > 0 {
      EditJobsPositional(jms[1..], e);
      var ms := Present(jms[0].slots);
      var head := EditCommands(ms, Project(e, jms[0].job));
      assert EditsFound(head, FoundOf(jms[0].job, ms), e);
      EditsFoundAppend(head, FoundOf(jms[0].job, ms), EditJobs(jms[1..], e), CollectedEntries(jms[1..]), e);
    }
  }

  /** Each edit overwrites a found mirror with the projection for the job it
      was found through. */
  lemma {:induction false} EditJobsProjectOwnJob(jms: seq<JobMirrors>, e: GuildEvent)
    ensures forall c :: c in EditJobs(jms, e) ==>
              c.EditEvent? && exists jm :: jm in jms && Some(c.target) in jm.slots && c.mirror == Project(e, jm.job)
  {
    if |jms| > 0 {
      EditJobsProjectOwnJob(jms[1..], e);
      var head := EditCommands(Present(jms[0].slots), Project(e, jms[0].job));
      var tail := EditJobs(jms[1..], e);
      assert EditJobs(jms, e) == head + tail;
      forall c | c in EditJobs(jms, e)
        ensures c.EditEvent? && exists jm :: jm in jms && Some(c.target) in jm.slots && c.mirror == Project(e, jm.job)
      {
        if c in head {
          var k :| 0 <= k < |head| && head[k] == c;
          assert Present(jms[0].slots)[k] in Present(jms[0].slots);
          assert jms[0] in jms;
        } else {
          var jm :| jm in jms[1..] && Some(c.target) in jm.slots && c.mirror == Project(e, jm.job);
          assert jm in jms;
        }
      }
    }
  }

  /** The update handler. All lookups happen first, so an unresolvable
      distribution guild ends the pass before any command. Then the new
      status decides, in this order: Active sets every found mirror Active,
      Completed sets it Completed, Scheduled edits it to the current
      projection; any other status issues nothing. */
  function OnUpdate(jobs: seq<MirrorJob>, guilds: GuildCache, e: GuildEvent): (r: Pass)
    ensures r.unresolved == [] <==> AllResolvable(guilds, GetJobList(jobs, e))
    ensures r.unresolved != [] ==> r.commands == [] && |r.unresolved| == 1 && r.unresolved[0] !in guilds
    ensures e.status == Canceled ==> r.commands == []
  {
    match CollectMirrors(guilds, GetJobList(jobs, e), e.id)
    case Failure(g) => Pass([], [g])
    case Success(jms) => Pass(Dispatch(jms, e), [])
  }

  /** The status switch of the update handler, over the collected lookups:
      for any status but Canceled there is one command per found mirror, in
      order, and its kind is fixed by the status. */
  function Dispatch(jms: seq<JobMirrors>, e: GuildEvent): (r: seq<Command>)
    ensures e.status == Canceled ==> r == []
    ensures e.status != Canceled ==> TargetsOf(r) == Flattened(jms) && |r| == |Flattened(jms)|
    ensures e.status == Active ==> forall c :: c in r ==> c.SetStatus? && c.status == Active
    ensures e.status == Completed ==> forall c :: c in r ==> c.SetStatus? && c.status == Completed
    ensures e.status == Scheduled ==> forall c :: c in r ==> c.EditEvent?
    ensures e.status == Scheduled ==> EditsFound(r, CollectedEntries(jms), e)
  {
    var found := Flattened(jms);
    match e.status
    case Active =>
      StatusCommandsTargets(found, Active);
      StatusCommands(found, Active)
    case Completed =>
      StatusCommandsTargets(found, Completed);
      StatusCommands(found, Completed)
    case Scheduled =>
      EditJobsTargets(jms, e);
      EditJobsProjectOwnJob(jms, e);
      EditJobsPositional(jms, e);
      EditJobs(jms, e)
    case Canceled => []
  }

  /** With every distribution guild cached, an update acts on exactly the
      found mirrors of the selected jobs, in order, one command each (none
      for a cancelled event); otherwise the pass ends with no command and
      reports the uncached guild. */
  lemma UpdateTargetsFoundMirrors(jobs: seq<MirrorJob>, guilds: GuildCache, e: GuildEvent)
    ensures var r := OnUpdate(jobs, guilds, e);
            var sel := GetJobList(jobs, e);
            AllResolvable(guilds, sel) && e.status != Canceled ==>
              TargetsOf(r.commands) == FoundMirrors(guilds, sel, e.id)
  {
    var sel := GetJobList(jobs, e);
    match CollectMirrors(guilds, sel, e.id)
    case Failure(_) =>
    case Success(jms) =>
      CollectedAreFound(guilds, sel, e.id);
  }

  /** The kind of every update command is fixed by the new status, checked
      in priority order: Active sets status Active, Completed sets status
      Completed, Scheduled edits the mirror to the projection for the
      selected job it was found through. With every guild cached, the
      `k`-th edit is that of the `k`-th found entry, so a mirror found
      through two jobs is edited twice, in job order. */
  lemma UpdateDispatch(jobs: seq<MirrorJob>, guilds: GuildCache, e: GuildEvent)
    ensures var r := OnUpdate(jobs, guilds, e);
            e.status == Active ==> forall c :: c in r.commands ==> c.SetStatus? && c.status == Active
    ensures var r := OnUpdate(jobs, guilds, e);
            e.status == Completed ==> forall c :: c in r.commands ==> c.SetStatus? && c.status == Completed
    ensures var r := OnUpdate(jobs, guilds, e);
            e.status == Scheduled ==> forall c :: c in r.commands ==>
              c.EditEvent?
              && exists job :: job in jobs && Selects(e, job) && Resolvable(guilds, job.distribute)
                               && c.target in FoundIn(guilds, job.distribute, e.id) && c.mirror == Project(e, job)
    ensures var sel := GetJobList(jobs, e);
            e.status == Scheduled && AllResolvable(guilds, sel) ==>
              EditsFound(OnUpdate(jobs, guilds, e).commands, FoundEntries(guilds, sel, e.id), e)
  {
    var sel := GetJobList(jobs, e);
    match CollectMirrors(guilds, sel, e.id)
    case Failure(_) =>
    case Success(jms) =>
      if e.status == Scheduled {
        if AllResolvable(guilds, sel) {
          UpdateEditsInFoundOrder(jobs, guilds, e);
        }
        EditJobsProjectOwnJob(jms, e);
        forall c | c in OnUpdate(jobs, guilds, e).commands
          ensures c.EditEvent?
                  && exists job :: job in jobs && Selects(e, job) && Resolvable(guilds, job.distribute)
                                   && c.target in FoundIn(guilds, job.distribute, e.id) && c.mirror == Project(e, job)
        {
          assert c in EditJobs(jms, e);
          var jm :| jm in jms && Some(c.target) in jm.slots && c.mirror == Project(e, jm.job);
          PresentSlotsAreFound(guilds, jm.job.distribute, e.id);
          assert c.target in FoundIn(guilds, jm.job.distribute, e.id);
        }
      }
  }

  /** With every guild cached, a Scheduled update issues one edit per
      found entry, in order: the `k`-th edit rewrites the `k`-th found
      mirror to the projection for the job it was found through. */
  lemma UpdateEditsInFoundOrder(jobs: seq<MirrorJob>, guilds: GuildCache, e: GuildEvent)
    requires e.status == Scheduled && AllResolvable(guilds, GetJobList(jobs, e))
    ensures EditsFound(OnUpdate(jobs, guilds, e).commands, FoundEntries(guilds, GetJobList(jobs, e), e.id), e)
  {
    CollectedEntriesAreFound(guilds, GetJobList(jobs, e), e.id);
  }

  /** The update handler as written: `eventList` holds one array of slots
      per selected job, and calling `setStatus` or `edit` on an array throws.
      So an update with at least one selected job and a status other than
      Canceled ends before any command, as does an uncached distribution
      guild; `aborted` records that. */
  function OnUpdateAsWritten(jobs: seq<MirrorJob>, guilds: GuildCache, e: GuildEvent): Partial
  {
    match CollectMirrors(guilds, GetJobList(jobs, e), e.id)
    case Failure(_) => Partial([], true)
    case Success(jms) => Partial([], |jms| > 0 && e.status != Canceled)
  }

  /** The discrepancy: as written, no update ever reaches a mirror, and it
      fails whenever a job is selected and the status is handled; the
      corrected handler acts on every found mirror. */
  lemma AsWrittenUpdateReachesNoMirror(jobs: seq<MirrorJob>, guilds: GuildCache, e: GuildEvent)
    ensures OnUpdateAsWritten(jobs, guilds, e).commands == []
    ensures OnUpdateAsWritten(jobs, guilds, e).aborted
            <==> !AllResolvable(guilds, GetJobList(jobs, e)) || (|GetJobList(jobs, e)| > 0 && e.status != Canceled)
    ensures var sel := GetJobList(jobs, e);
            AllResolvable(guilds, sel) && e.status != Canceled && FoundMirrors(guilds, sel, e.id) != [] ==>
              OnUpdate(jobs, guilds, e).commands != []
  {
    UpdateTargetsFoundMirrors(jobs, guilds, e);
  }

  // ------------------------------------------------------------------
  // delete (index.js:134-140)
  // ------------------------------------------------------------------

  function DeleteCommands(ms: seq<RemoteEvent>): (r: seq<Command>)
    ensures |r| == |ms|
    ensures forall k :: 0 <= k < |ms| ==> r[k] == DeleteEvent(ms[k])
  {
    if |ms| == 0 then [] else [DeleteEvent(ms[0])] + DeleteCommands(ms[1..])
  }

  lemma DeleteCommandsAppend(a: seq<RemoteEvent>, b: seq<RemoteEvent>)
    ensures DeleteCommands(a + b) == DeleteCommands(a) + DeleteCommands(b)
  {
  }

  /** Job by job: look up the mirrors, then delete each one found. A failing
      lookup ends the pass; deletes already issued for earlier jobs stand.
      Only mirrors of `id` are ever deleted. */
  function DeleteJobs(guilds: GuildCache, sel: seq<MirrorJob>, id: string): (r: Pass)
    ensures forall c :: c in r.commands ==> c.DeleteEvent? && Matches(c.target, id)
  {
    if |sel| == 0 then Pass([], [])
    else
      match GetJobEvents(guilds, sel[0], id)
      case Failure(g) => Pass([], [g])
      case Success(slots) =>
        var found := Present(slots);
        var rest := DeleteJobs(guilds, sel[1..], id);
        assert forall c :: c in DeleteCommands(found) ==> c.DeleteEvent? && c.target in found;
        Pass(DeleteCommands(found) + rest.commands, rest.unresolved)
  }

  lemma TailResolvable(guilds: GuildCache, sel: seq<MirrorJob>)
    requires |sel| > 0 && AllResolvable(guilds, sel)
    ensures Resolvable(guilds, sel[0].distribute) && AllResolvable(guilds, sel[1..])
  {
    forall i | 0 <= i < |sel[1..]| ensures Resolvable(guilds, sel[1..][i].distribute) {
      assert sel[1..][i] == sel[i + 1];
    }
  }

  /** With every distribution guild cached, the pass deletes exactly the
      found mirrors, in order, and warns about nothing. */
  lemma {:induction false} DeleteJobsResolved(guilds: GuildCache, sel: seq<MirrorJob>, id: string)
    requires AllResolvable(guilds, sel)
    ensures DeleteJobs(guilds, sel, id) == Pass(DeleteCommands(FoundMirrors(guilds, sel, id)), [])
  {
    if |sel| > 0 {
      TailResolvable(guilds, sel);
      PresentSlotsAreFound(guilds, sel[0].distribute, id);
      DeleteJobsResolved(guilds, sel[1..], id);
      DeleteCommandsAppend(FoundIn(guilds, sel[0].distribute, id), FoundMirrors(guilds, sel[1..], id));
    }
  }

  /** The position of the first job in `sel` with an uncached distribution
      guild. */
  function FirstUnresolvable(guilds: GuildCache, sel: seq<MirrorJob>): (k: nat)
    requires !AllResolvable(guilds, sel)
    ensures k < |sel| && !Resolvable(guilds, sel[k].distribute)
    ensures AllResolvable(guilds, sel[..k])
  {
    if !Resolvable(guilds, sel[0].distribute) then 0
    else
      assert !AllResolvable(guilds, sel[1..]) by {
        var i :| 0 <= i < |sel| && !Resolvable(guilds, sel[i].distribute);
        assert sel[1..][i - 1] == sel[i];
      }
      var k := FirstUnresolvable(guilds, sel[1..]);
      k + 1
  }

  /** One step of the delete pass over a job whose guilds are all cached:
      its found mirrors are deleted, then the pass continues. */
  lemma DeleteJobsStep(guilds: GuildCache, sel: seq<MirrorJob>, id: string)
    requires |sel| > 0 && Resolvable(guilds, sel[0].distribute)
    ensures DeleteJobs(guilds, sel, id).commands
            == DeleteCommands(FoundIn(guilds, sel[0].distribute, id)) + DeleteJobs(guilds, sel[1..], id).commands
    ensures DeleteJobs(guilds, sel, id).unresolved == DeleteJobs(guilds, sel[1..], id).unresolved
  {
    PresentSlotsAreFound(guilds, sel[0].distribute, id);
  }

  /** A distribution guild missing from the cache ends the pass: the deletes
      are exactly those of the jobs before the first job with an uncached
      guild, and exactly one guild of that job, an uncached one, is reported. */
  lemma {:induction false} DeleteJobsUnresolved(guilds: GuildCache, sel: seq<MirrorJob>, id: string)
    requires !AllResolvable(guilds, sel)
    ensures var k := FirstUnresolvable(guilds, sel);
            DeleteJobs(guilds, sel, id).commands == DeleteCommands(FoundMirrors(guilds, sel[..k], id))
    ensures |DeleteJobs(guilds, sel, id).unresolved| == 1
    ensures DeleteJobs(guilds, sel, id).unresolved[0] in sel[FirstUnresolvable(guilds, sel)].distribute
    ensures DeleteJobs(guilds, sel, id).unresolved[0] !in guilds
  {
    var k := FirstUnresolvable(guilds, sel);
    if k == 0 {
      assert sel[..0] == [];
    } else {
      var r := DeleteJobs(guilds, sel, id);
      var tail := sel[1..];
      var rest := DeleteJobs(guilds, tail, id);
      assert !AllResolvable(guilds, tail) by {
        assert tail[k - 1] == sel[k];
      }
      DeleteJobsUnresolved(guilds, tail, id);
      var k' := FirstUnresolvable(guilds, tail);
      assert k' == k - 1;
      assert Resolvable(guilds, sel[0].distribute) by {
        assert sel[..k][0] == sel[0];
      }
      DeleteJobsStep(guilds, sel, id);
      var found := FoundIn(guilds, sel[0].distribute, id);
      assert sel[..k][1..] == tail[..k'];
      assert FoundMirrors(guilds, sel[..k], id) == found + FoundMirrors(guilds, tail[..k'], id);
      DeleteCommandsAppend(found, FoundMirrors(guilds, tail[..k'], id));
      assert tail[k'] == sel[k];
    }
  }

  /** The delete handler: every mirror found for a selected job is deleted,
      in job and distribution order, and each distribution guild without a
      mirror counts as one warning. */
  function OnDelete(jobs: seq<MirrorJob>, guilds: GuildCache, e: GuildEvent): (r: Pass)
    ensures forall c :: c in r.commands ==> c.DeleteEvent? && Matches(c.target, e.id)
    ensures r.unresolved == [] <==> AllResolvable(guilds, GetJobList(jobs, e))
    ensures r.unresolved != [] ==> |r.unresolved| == 1 && r.unresolved[0] !in guilds
  {
    var sel := GetJobList(jobs, e);
    if AllResolvable(guilds, sel) then
      DeleteJobsResolved(guilds, sel, e.id);
      DeleteJobs(guilds, sel, e.id)
    else
      DeleteJobsUnresolved(guilds, sel, e.id);
      DeleteJobs(guilds, sel, e.id)
  }

  /** The delete dispatch: with every distribution guild cached, each found
      mirror of a selected job is deleted once, in order, nothing else is
      deleted, and the deletes plus the warned-about guilds account for every
      distribution guild. */
  lemma DeleteDispatch(jobs: seq<MirrorJob>, guilds: GuildCache, e: GuildEvent)
    requires AllResolvable(guilds, GetJobList(jobs, e))
    ensures var r := OnDelete(jobs, guilds, e);
            r.unresolved == [] && |r.commands| == |FoundMirrors(guilds, GetJobList(jobs, e), e.id)|
    ensures var r := OnDelete(jobs, guilds, e);
            forall k :: 0 <= k < |r.commands| ==>
              r.commands[k] == DeleteEvent(FoundMirrors(guilds, GetJobList(jobs, e), e.id)[k])
    ensures var r := OnDelete(jobs, guilds, e);
            |r.commands| + Missing(guilds, GetJobList(jobs, e), e.id) == PairCount(GetJobList(jobs, e))
  {
    DeleteJobsResolved(guilds, GetJobList(jobs, e), e.id);
    FoundOrWarned(guilds, GetJobList(jobs, e), e.id);
  }

  /** One job's deletes as written: they run in order up to the first absent
      slot, which throws. */
  function DeleteSlotsAsWritten(slots: seq<Option<RemoteEvent>>): (r: Partial)
    ensures r.aborted <==> Absent(slots) > 0
    ensures !r.aborted ==> r.commands == DeleteCommands(Present(slots))
  {
    if |slots| == 0 then Partial([], false)
    else
      match slots[0]
      case None => Partial([], true)
      case Some(m) =>
        var rest := DeleteSlotsAsWritten(slots[1..]);
        assert Present(slots) == [m] + Present(slots[1..]);
        assert ([m] + Present(slots[1..]))[1..] == Present(slots[1..]);
        Partial([DeleteEvent(m)] + rest.commands, rest.aborted)
  }

  /** The delete handler as written: each job's deletes meet an absent slot
      as `undefined` and throw, which ends the whole pass; an uncached guild
      throws in the lookup. */
  function DeleteJobsAsWritten(guilds: GuildCache, sel: seq<MirrorJob>, id: string): Partial
  {
    if |sel| == 0 then Partial([], false)
    else
      match GetJobEvents(guilds, sel[0], id)
      case Failure(_) => Partial([], true)
      case Success(slots) =>
        var first := DeleteSlotsAsWritten(slots);
        if first.aborted then first
        else
          var rest := DeleteJobsAsWritten(guilds, sel[1..], id);
          Partial(first.commands + rest.commands, rest.aborted)
  }

  /** The absent slots of a lookup are the guilds without a mirror. */
  lemma {:induction false} AbsentSlotsAreMissing(guilds: GuildCache, targets: seq<string>, id: string)
    requires Resolvable(guilds, targets)
    ensures LookupAll(guilds, targets, id).Success?
    ensures Absent(LookupAll(guilds, targets, id).value) == MissingIn(guilds, targets, id)
  {
    if |targets| > 0 {
      AbsentSlotsAreMissing(guilds, targets[1..], id);
      var slots := LookupAll(guilds, targets, id).value;
      assert slots[1..] == LookupAll(guilds, targets[1..], id).value;
    }
  }

  /** The discrepancy in general: the delete handler as written throws
      exactly when some distribution guild is uncached or holds no mirror,
      and only when it does not throw does it delete what the corrected
      handler deletes. */
  lemma {:induction false} AsWrittenDeleteAbortsOnMissing(guilds: GuildCache, sel: seq<MirrorJob>, id: string)
    ensures DeleteJobsAsWritten(guilds, sel, id).aborted
            <==> !AllResolvable(guilds, sel) || Missing(guilds, sel, id) > 0
    ensures !DeleteJobsAsWritten(guilds, sel, id).aborted ==>
              DeleteJobsAsWritten(guilds, sel, id).commands == DeleteCommands(FoundMirrors(guilds, sel, id))
  {
    if |sel| > 0 {
      var tail := sel[1..];
      assert AllResolvable(guilds, sel) <==> Resolvable(guilds, sel[0].distribute) && AllResolvable(guilds, tail) by {
        if Resolvable(guilds, sel[0].distribute) && AllResolvable(guilds, tail) {
          forall i | 0 < i < |sel| ensures Resolvable(guilds, sel[i].distribute) {
            assert sel[i] == tail[i - 1];
          }
        }
        if AllResolvable(guilds, sel) {
          TailResolvable(guilds, sel);
        }
      }
      if Resolvable(guilds, sel[0].distribute) {
        AbsentSlotsAreMissing(guilds, sel[0].distribute, id);
        PresentSlotsAreFound(guilds, sel[0].distribute, id);
        AsWrittenDeleteAbortsOnMissing(guilds, tail, id);
        var found := FoundIn(guilds, sel[0].distribute, id);
        if AllResolvable(guilds, sel) {
          DeleteCommandsAppend(found, FoundMirrors(guilds, tail, id));
        }
      }
    }
  }
}

=== FILE: results.dfy ===
/** Failure-compatible wrappers used across the model: an optional value (a
    JavaScript `undefined` result) and a success-or-error value (a thrown
    exception that ends a handler). */
module Results {

  datatype Option<+T> = None | Some(value: T)

  datatype Result<+T, +E> = Success(value: T) | Failure(error: E)
}

=== FILE: scenarios.dfy ===
/** Worked examples: one guild mirrored into another, followed through
    creation, a general update, an announcement aimed at a channel of the
    wrong guild, and the delete handler as written. */
module Scenarios {

  import opened Results
  import Seqs
  import opened Platform
  import opened Config
  import JobMatcher
  import opened Correlation
  import opened Projector
  import opened Reconcile
  import opened Announce

  /** A voice event of guild G1 without an end time, with description `d`. */
  function WeeklySync(d: string): GuildEvent
  {
    GuildEvent("E1", "G1", "Guild One", "Weekly", d, Voice, 1000, None, "General", "",
               Scheduled, "https://discord.com/events/G1/E1")
  }

  function SyncJob(): MirrorJob
  {
    MirrorJob(["G1"], TypeFlags(false, true, false), ["G2"], "Mirrored from G1")
  }

  /** The example job is the one selected for the example event, whatever
      its description. */
  lemma SyncJobSelected(e: GuildEvent, job: MirrorJob)
    requires e.guildId == "G1" && e.entityType == Voice
    requires job.listen == ["G1"] && job.types.voice
    ensures JobMatcher.GetJobList([job], e) == [job]
  {
    var sel := JobMatcher.GetJobList([job], e);
    assert job in sel;
    assert |sel| <= 1;
    assert sel[0] == job;
  }

  /** The mirror of the example event, for a given source description. */
  lemma SyncMirror(e: GuildEvent, job: MirrorJob, d: string)
    requires e == WeeklySync(d) && job == SyncJob()
    ensures Project(e, job)
            == MirrorEvent("Weekly", 1000, 7201000, d + "\nMirrored from G1\n\nE1",
                           "VC \"General\" in Guild One", External)
  {
    var tail := "\nMirrored from G1\n\nE1";
    assert "\n" + "Mirrored from G1" + "\n\n" + "E1" == tail;
    assert d + "\n" + "Mirrored from G1" + "\n\n" + "E1" == d + ("\n" + "Mirrored from G1" + "\n\n" + "E1");
    assert Location(e) == "VC \"" + "General" + "\" in " + "Guild One" == "VC \"General\" in Guild One";
    assert e.scheduledStartTimestamp == 1000 && e.scheduledEndTimestamp == None;
    assert !HasEnd(e) && EndTime(e) == 1000 + DefaultDuration == 7201000;
  }

  /** With one selected job distributing to one cached guild, a creation
      issues exactly one create, of that job's projection. */
  lemma CreateSingleTarget(jobs: seq<MirrorJob>, guilds: GuildCache, e: GuildEvent, job: MirrorJob, g: string)
    requires JobMatcher.GetJobList(jobs, e) == [job] && job.distribute == [g] && g in guilds
    ensures OnCreate(jobs, guilds, e) == Pass([CreateEvent(g, Project(e, job))], [])
  {
    assert job.distribute[1..] == [];
    assert CreateTargets(guilds, job, e, job.distribute) == Pass([CreateEvent(g, Project(e, job))], []);
    assert [job][1..] == [];
  }

  /** With one selected job whose one cached guild holds mirror `m`, a
      general update issues exactly one edit, of `m` to the projection. */
  lemma UpdateSingleTarget(jobs: seq<MirrorJob>, guilds: GuildCache, e: GuildEvent, job: MirrorJob, g: string,
                           m: RemoteEvent)
    requires JobMatcher.GetJobList(jobs, e) == [job] && job.distribute == [g] && g in guilds
    requires FindMirror(guilds[g], e.id) == Some(m) && e.status == Scheduled
    ensures OnUpdate(jobs, guilds, e) == Pass([EditEvent(m, Project(e, job))], [])
  {
    var slots := [Some(m)];
    assert Resolvable(guilds, job.distribute);
    var lookup := GetJobEvents(guilds, job, e.id);
    assert lookup.Success? && |lookup.value| == 1 && lookup.value[0] == Some(m);
    assert lookup.value == slots;
    assert AllResolvable(guilds, [job]);
    var collected := CollectMirrors(guilds, [job], e.id);
    assert collected.Success? && |collected.value| == 1 && collected.value[0] == JobMirrors(job, slots);
    var jms := [JobMirrors(job, slots)];
    assert collected.value == jms;
    assert Seqs.Present(slots) == [m];
    assert jms[1..] == [];
    assert EditJobs(jms, e) == EditCommands([m], Project(e, job)) + [];
    assert Dispatch(jms, e) == EditJobs(jms, e);
  }

  /** A voice event without an end time is created once in G2, two hours
      long, with the id as the last line of its description. */
  lemma CreateWeeklySync(e: GuildEvent, job: MirrorJob)
    requires e == WeeklySync("Weekly sync") && job == SyncJob()
    ensures OnCreate([job], map["G2" := []], e)
            == Pass([CreateEvent("G2", MirrorEvent("Weekly", 1000, 7201000,
                                                   "Weekly sync" + "\nMirrored from G1\n\nE1",
                                                   "VC \"General\" in Guild One", External))], [])
  {
    SyncJobSelected(e, job);
    CreateSingleTarget([job], map["G2" := []], e, job, "G2");
    SyncMirror(e, job, "Weekly sync");
  }

  /** After the mirror exists in G2, a general update finds it by the id and
      edits it with the new description, suffix re-applied. */
  lemma UpdateWeeklySync(e: GuildEvent, job: MirrorJob, mirror: RemoteEvent)
    requires e == WeeklySync("Weekly sync v2") && job == SyncJob()
    requires mirror == RemoteEvent("M1", "Weekly sync" + "\nMirrored from G1\n\nE1")
    ensures OnUpdate([job], map["G2" := [mirror]], e)
            == Pass([EditEvent(mirror, MirrorEvent("Weekly", 1000, 7201000,
                                                   "Weekly sync v2" + "\nMirrored from G1\n\nE1",
                                                   "VC \"General\" in Guild One", External))], [])
  {
    var first := WeeklySync("Weekly sync");
    SyncJobSelected(e, job);
    SyncMirror(first, job, "Weekly sync");
    ProjectedMirrorIsFound([], "M1", first, job, []);
    assert [] + [mirror] + [] == [mirror];
    UpdateSingleTarget([job], map["G2" := [mirror]], e, job, "G2", mirror);
    SyncMirror(e, job, "Weekly sync v2");
  }

  /** The same update, handled as written, fails before editing anything. */
  lemma AsWrittenUpdateWeeklySyncFails(e: GuildEvent, job: MirrorJob, mirror: RemoteEvent)
    requires e == WeeklySync("Weekly sync v2") && job == SyncJob()
    ensures OnUpdateAsWritten([job], map["G2" := [mirror]], e) == Partial([], true)
  {
    SyncJobSelected(e, job);
    AsWrittenUpdateReachesNoMirror([job], map["G2" := [mirror]], e);
  }

  /** A creation announcement aimed at a channel of G2 for an event posted in
      G1 sends nothing. */
  lemma CrossGuildChannelSkipped(e: GuildEvent)
    requires e == WeeklySync("Weekly sync")
    ensures OnCreatedAnnounce([AnnounceJob(["C1"], AnnounceFlags(true, false), "Heads up")],
                              map["C1" := "G2"], e) == []
  {
  }

  /** The delete handler as written stops at the first distribution guild
      without a mirror: with none in G2 and one in G3, it deletes nothing,
      while the corrected handler deletes the G3 mirror. */
  lemma AsWrittenDeleteStopsAtMissingMirror(e: GuildEvent, job: MirrorJob, mirror: RemoteEvent)
    requires e == WeeklySync("Weekly sync") && job == SyncJob().(distribute := ["G2", "G3"])
    requires mirror == RemoteEvent("M3", Project(e, SyncJob()).description)
    ensures DeleteJobsAsWritten(map["G2" := [], "G3" := [mirror]], [job], e.id) == Partial([], true)
    ensures OnDelete([job], map["G2" := [], "G3" := [mirror]], e) == Pass([DeleteEvent(mirror)], [])
  {
    var guilds := map["G2" := [], "G3" := [mirror]];
    ProjectedMirrorIsFound([], "M3", e, SyncJob(), []);
    assert [] + [mirror] + [] == [mirror];
    assert FindMirror(guilds["G3"], e.id) == Some(mirror);
    assert FindMirror(guilds["G2"], e.id) == None;
    var slots := [None, Some(mirror)];
    assert Resolvable(guilds, job.distribute);
    var lookup := GetJobEvents(guilds, job, e.id);
    assert lookup.Success? && |lookup.value| == 2 && lookup.value[0] == None && lookup.value[1] == Some(mirror);
    assert lookup.value == slots;
    assert DeleteSlotsAsWritten(slots) == Partial([], true);
    SyncJobSelected(e, job);
    assert [job][1..] == [];
    assert Seqs.Present(slots) == [mirror];
    assert DeleteJobs(guilds, [job], e.id) == Pass(DeleteCommands([mirror]) + [], []);
  }

  /** As written, the voice event of the example gets no mirror at all. */
  lemma AsWrittenVoiceEventHasNoMirror(e: GuildEvent)
    requires e == WeeklySync("Weekly sync")
    ensures ProjectAsWritten(e, SyncJob()) == None
    ensures Project(e, SyncJob()).location == "VC \"General\" in Guild One"
  {
    SyncMirror(e, SyncJob(), "Weekly sync");
  }

  /** Two selected jobs that distribute to the same guild find the same
      mirror there, since the lookup matches on the id alone. A general
      update then edits that mirror twice, first to the projection for the
      first job and then to that for the second, so the second job's
      suffix is what remains. */
  lemma SharedMirrorEditedInJobOrder(jobs: seq<MirrorJob>, guilds: GuildCache, e: GuildEvent,
                                     j1: MirrorJob, j2: MirrorJob, g: string, m: RemoteEvent)
    requires JobMatcher.GetJobList(jobs, e) == [j1, j2] && j1.distribute == [g] && j2.distribute == [g]
    requires g in guilds && FindMirror(guilds[g], e.id) == Some(m) && e.status == Scheduled
    ensures OnUpdate(jobs, guilds, e).commands == [EditEvent(m, Project(e, j1)), EditEvent(m, Project(e, j2))]
  {
    SharedFound(guilds, e.id, j1, j2, g, m);
    UpdateEditsInFoundOrder(jobs, guilds, e);
    var r := OnUpdate(jobs, guilds, e).commands;
    assert EditsFound(r, [Found(j1, m), Found(j2, m)], e);
    assert r[0] == EditEvent(m, Project(e, j1));
    assert r[1] == EditEvent(m, Project(e, j2));
  }

  /** Both jobs of the shared-mirror scenario find the one mirror. */
  lemma SharedFound(guilds: GuildCache, id: string, j1: MirrorJob, j2: MirrorJob, g: string, m: RemoteEvent)
    requires j1.distribute == [g] && j2.distribute == [g] && g in guilds && FindMirror(guilds[g], id) == Some(m)
    ensures AllResolvable(guilds, [j1, j2])
    ensures FoundEntries(guilds, [j1, j2], id) == [Found(j1, m), Found(j2, m)]
  {
    assert [g][1..] == [];
    assert FoundIn(guilds, [g], id) == [m];
    var sel := [j1, j2];
    assert sel[1..] == [j2] && sel[1..][1..] == [];
    assert FoundEntries(guilds, [j2], id) == [Found(j2, m)];
  }
}

=== FILE: seqs.dfy ===
/** Generic sequence operations: the `Array.prototype.filter` the job
    selection is built from, and the subsequence relation that states it
    keeps configuration order. */
module Seqs {

  import opened Results

  /** `a` is obtained from `b` by deleting elements, keeping `b`'s order. */
  predicate IsSubsequence<T(==)>(a: seq<T>, b: seq<T>)
    decreases |b|
  {
    |a| == 0
    || (|b| > 0 && ((a[0] == b[0] && IsSubsequence(a[1..], b[1..])) || IsSubsequence(a, b[1..])))
  }

  /** The elements of `s` that satisfy `p`, in their original order. */
  function Filter<T(!new)>(s: seq<T>, p: T -> bool): (r: seq<T>)
    ensures |r| <= |s|
    ensures forall k :: 0 <= k < |r| ==> p(r[k])
    ensures forall x :: x in r <==> x in s && p(x)
  {
    if |s| == 0 then []
    else if p(s[0]) then [s[0]] + Filter(s[1..], p)
    else Filter(s[1..], p)
  }

  lemma {:induction false} FilterIsSubsequence<T(!new)>(s: seq<T>, p: T -> bool)
    ensures IsSubsequence(Filter(s, p), s)
  {
    if |s| > 0 {
      FilterIsSubsequence(s[1..], p);
      var rest := Filter(s[1..], p);
      if p(s[0]) {
        assert Filter(s, p) == [s[0]] + rest;
        assert ([s[0]] + rest)[1..] == rest;
      } else {
        assert Filter(s, p) == rest;
      }
    }
  }

  /** Two filters in a row keep exactly what their conjunction `pq` keeps. */
  lemma {:induction false} FilterFilter<T(!new)>(s: seq<T>, p: T -> bool, q: T -> bool, pq: T -> bool)
    requires forall x :: pq(x) == (p(x) && q(x))
    ensures Filter(Filter(s, p), q) == Filter(s, pq)
  {
    if |s| > 0 {
      FilterFilter(s[1..], p, q, pq);
      if p(s[0]) {
        assert ([s[0]] + Filter(s[1..], p))[1..] == Filter(s[1..], p);
      }
    }
  }

  /** Filtering by a predicate and by its negation splits `s` in two. */
  lemma {:induction false} FilterPartition<T(!new)>(s: seq<T>, p: T -> bool, q: T -> bool)
    requires forall x :: q(x) == !p(x)
    ensures |Filter(s, p)| + |Filter(s, q)| == |s|
  {
    if |s| > 0 {
      FilterPartition(s[1..], p, q);
    }
  }

  /** The values held by the present entries of `s`, in order. */
  function Present<T(!new)>(s: seq<Option<T>>): (r: seq<T>)
    ensures |r| + Absent(s) == |s|
    ensures forall x :: x in r <==> Some(x) in s
  {
    if |s| == 0 then []
    else
      var rest := Present(s[1..]);
      assert forall x :: Some(x) in s <==> s[0] == Some(x) || Some(x) in s[1..];
      if s[0].Some? then [s[0].value] + rest else rest
  }

  /** How many entries of `s` are absent. */
  function Absent<T>(s: seq<Option<T>>): nat
  {
    if |s| == 0 then 0
    else (if s[0].None? then 1 else 0) + Absent(s[1..])
  }
}

=== FILE: strings.dfy ===
/** Substring search: the `String.prototype.includes` the mirror lookup
    relies on. */
module Strings {

  /** `needle` occurs somewhere in `hay`; the empty string occurs everywhere. */
  predicate Contains(hay: string, needle: string)
    decreases |hay|
  {
    needle <= hay || (|hay| > 0 && Contains(hay[1..], needle))
  }

  /** `needle` occurs in `hay` starting at position `i`. */
  ghost predicate OccursAt(hay: string, needle: string, i: int)
  {
    0 <= i && i + |needle| <= |hay| && hay[i..i + |needle|] == needle
  }

  /** The scanning definition agrees with the positional one. */
  lemma {:induction false} ContainsIffOccurs(hay: string, needle: string)
    ensures Contains(hay, needle) <==> exists i :: OccursAt(hay, needle, i)
    decreases |hay|
  {
    if needle <= hay {
      assert OccursAt(hay, needle, 0);
    } else if |hay| == 0 {
      assert forall i :: !OccursAt(hay, needle, i);
    } else {
      ContainsIffOccurs(hay[1..], needle);
      if Contains(hay[1..], needle) {
        var i :| OccursAt(hay[1..], needle, i);
        assert hay[1..][i..i + |needle|] == hay[i + 1..i + 1 + |needle|];
        assert OccursAt(hay, needle, i + 1);
      }
      if i :| OccursAt(hay, needle, i) {
        assert i != 0;
        assert hay[1..][i - 1..i - 1 + |needle|] == hay[i..i + |needle|];
        assert OccursAt(hay[1..], needle, i - 1);
      }
    }
  }

  /** A string that ends with `s` contains `s`. */
  lemma {:induction false} ContainsOwnSuffix(prefix: string, s: string)
    ensures Contains(prefix + s, s)
    decreases |prefix|
  {
    if |prefix| > 0 {
      ContainsOwnSuffix(prefix[1..], s);
      assert (prefix + s)[1..] == prefix[1..] + s;
    }
  }

  /** A string contains each of its infixes. */
  lemma {:induction false} ContainsInfix(prefix: string, s: string, suffix: string)
    ensures Contains(prefix + s + suffix, s)
    decreases |prefix|
  {
    if |prefix| == 0 {
      assert prefix + s + suffix == s + suffix;
    } else {
      ContainsInfix(prefix[1..], s, suffix);
      assert (prefix + s + suffix)[1..] == prefix[1..] + s + suffix;
    }
  }
}
